=== FILE: README.md ===
# Objectives rollup and project billing, modelled in Dafny

This project models the core of a small agency back office.

- **Objectives rollup.** Day, month and year objectives are shown in the window a request asks for. An objective that is still unfinished, and not scratched, is carried forward into later windows. The result is grouped into the `{ day, month, year }` buckets. A completion summary is computed from the day bucket.
- **Billing report.** For each active project, the report gives:
  - the hours executed this month and in total: work entries are reached through the project's tasks and their objectives, and their seconds are divided by 3600;
  - the hours and amounts billed this month and in total, summed from the project's ledger of invoice lines.
- **Ledger.** The invoice-line record and its schema validation, and the three edits that append, replace and remove ledger lines.

Modules:

- `Wrappers`: `Option`, and `Result`, which carries a store or validation error.
- `Ids`: the identifier types.
- `Seqs`: filter, map and sum over sequences, with their algebra. It also holds `SumLeftFold`, the handlers' `reduce` loop, proved equal to `Sum`.
- `Calendar`: proleptic Gregorian UTC dates and instants in milliseconds. It provides the day, month and year windows (`startOf`/`endOf`) and `CivilOf`, which recovers the calendar date of an instant.
- `DateFormat`: the `YYYY/MM` key of the date library's formatter, with zero fill and a sign.
- `Objectives`: the query date filter, the per-level filters, level selection, `_getObjectives`, `groupByLevel` and `getSummary`.
- `Invoice`: the ledger line record and its validation.
- `Ledger`: the project record and the add, update and delete edits to its ledger.
- `Billing`: the work-entry join, the executed hours, the ledger reductions, `isThisMonth`, `getFilterForMonth` and the `calculateBillingVariables` merge.

Other inputs are modelled as follows:

- **Clock.** The current instant `now` is a parameter.
- **Store reads.** A store query becomes a filter over a given sequence, in store order. In the billing join, each read of a collection is a `Result`, so that a failing read can propagate.
- **Numbers.** Numeric fields (`progress`, `time`, `amount`, `billed_hours`) are exact `real`s.

## Model

| member | source | states |
|---|---|---|
| Objectives.ComposeAnchor | api/objectives.js:126-129 | The date as the code composes it, from the given parts or else today's month and day. For in-range given parts, it is a real date if and only if a day is given or today's day-of-month exists in the requested month. |
| Objectives.Anchor | api/objectives.js:126-129 | The request's date: the given year, the given month or else today's UTC month, and the given day or else today's day. A defaulted day is clamped so the date always exists. Wherever the composed date exists, the anchor is that date. |
| Objectives.DateFilter | api/objectives.js:125-206 | In "all" mode, an objective matches exactly when it is carried into the window of its own level (the `$or` of the three filters). Otherwise it must also be of the level the request selects: day when month and day are given, month when only the month is, year otherwise. Carried means all three of: dated by the window's end; not at progress 1, or completed since the window's start; not scratched, or scratched since the window's start. |
| Objectives.GroupByLevel | api/objectives.js:209-216 | Each bucket is exactly the input filtered by that level, in input order. The three bucket sizes add up to the input size. |
| Objectives.GroupByLevelPlacesByLevel | api/objectives.js:209-216 | An objective is in the bucket of a level if and only if it is in the input and has that level. |
| Objectives.GetObjectivesSelects | api/objectives.js:110-122 | An objective is in bucket `level` if and only if all of these hold: it is in the store; it has that level; it is of the selected level (unless in "all" mode); it is not deleted; it is owned by the owner, when one is given; and it is carried into the window of that level. |
| Objectives.GetObjectives | api/objectives.js:110-122 | The bucket sizes add up to at most the store size. Outside "all" mode, every bucket other than the selected level's is empty. |
| Objectives.PeriodEndMonotone | api/objectives.js:131-136 | A later anchor date never gives an earlier window end, at any level. |
| Objectives.PeriodStartsAfter | api/objectives.js:131-136 | The window of a later day, month or year starts after the earlier window ends. |
| Objectives.CarryForward | api/objectives.js:140-195 | An unfinished, unscratched objective that is visible at one anchor date stays visible at every later anchor date. |
| Objectives.CompletionCutOff | api/objectives.js:140-195 | An objective completed inside its level's window is visible in that window. It is absent from the window of every later period. |
| Objectives.CompletedDayObjectiveLeavesNextDay | api/objectives.js:140-157 | A day objective completed on day d matches the day filter of d. It does not match the day filter of the next day. |
| Objectives.MonthOnlyRequestOnThe31st | api/objectives.js:126-129 | A month-only request for February 2024, made on 31 March 2024, composes 2024-02-31, which does not exist. |
| Objectives.YearOnlyRequestOnLeapDay | api/objectives.js:126-129 | A year-only request for 2023, made on 29 February 2024, composes 2023-02-29, which does not exist. |
| Objectives.SelectedWindowIgnoresDefaults | api/objectives.js:129-136 | With the clamped anchor, a month-only request selects exactly that month's window. A year-only request selects exactly that year's window, whatever today is. |
| Objectives.GetSummary | api/objectives.js:90-108 | The user's count is at most everyone's count, which is at most the input size. With non-negative progress, the user's completed figure is at most everyone's. |
| Objectives.UnscratchedObjectiveCounted | api/objectives.js:90-108 | Adding an unscratched objective raises everyone's count by one and everyone's completed figure by its `floor(progress)`. The user's figures rise the same way if and only if the user owns it, and are unchanged otherwise. |
| Objectives.CompletedCount | api/objectives.js:95-97 | With progress in 0..1, the sum of `floor(progress)` lies between 0 and the number of objectives. |
| Objectives.CompletedCountCountsFinished | api/objectives.js:95-97 | With progress in 0..1, summing `floor(progress)` gives the number of objectives at progress 1. |
| Objectives.CompletedCountOfFilterAtMost | api/objectives.js:92-97 | With non-negative progress, a filtered part never completes more than the whole. |
| Objectives.SummaryCountsFinished | api/objectives.js:90-108 | With progress in 0..1, everyone's completed figure is the number of unscratched objectives at progress 1. The user's figure is that number among the objectives the user owns. Each completed figure is at most its count. |
| Objectives.ScratchedObjectiveNotCounted | api/objectives.js:91 | Adding a scratched objective changes neither figure. |
| Objectives.SummaryEveryoneIndependentOfOwner | api/objectives.js:79-88 | The summary's query has no owner filter: everyone's figures are the same for every user. The user's count never exceeds everyone's count. |
| Objectives.ObjectivesSummary | api/objectives.js:79-88 | The summary is computed from the day bucket of an unscoped query. The user's count is at most everyone's, which is at most the store size. A request that selects the month or year level has an empty day bucket, so every figure is 0. |
| Objectives.SummaryScenario | api/objectives.js:90-108 | Three finished objectives of user 1 and one unfinished objective of user 2 give user 3/3 and everyone 3/4. |
| Calendar.CivilOf | api/objectives.js:126-127 | The UTC calendar date of an instant is a real date, and the instant lies within that date's day window. |
| Calendar.WindowsNest | api/objectives.js:131-136 | For any date: year start ≤ month start ≤ day start ≤ day end ≤ month end ≤ year end. |
| Calendar.MonthWindowMembership | api/projects.js:230-234 | An instant is in the window from the start to the end of month m of year y if and only if its UTC date is in year y and month m. |
| DateFormat.MonthKeyInjective | api/projects.js:226 | Two `YYYY/MM` keys are equal if and only if the years are equal and the months are equal. |
| Seqs.Sum | api/projects.js:228 | Non-negative numbers have a non-negative sum. |
| Seqs.SumLeftFold | api/projects.js:228 | The `reduce((total, n) => n + total, 0)` loop returns the sum of the numbers. |
| Invoice.Validate | models/invoice.js:4-17 | A line validates if and only if all of these hold: the description is non-empty; amount, invoicing date and creator are present; and a present direction lower-cases to `in` or `out`. A failure names exactly the failing paths. A success copies the given fields, lower-cases the direction, and defaults `paid` to false and `created_ts` to now. |
| Invoice.ValidateToDraft | models/invoice.js:4-17 | Round trip: a well-formed line, submitted with all its fields, validates back to itself. |
| Invoice.DraftOfValidatedLine | models/invoice.js:4-17 | Reverse round trip: a line that passes validation is well formed. Its full draft is the submitted draft with `paid` and `created_ts` defaulted and the direction lower-cased. |
| Invoice.DirectionOptionalAndLowerCased | models/invoice.js:13 | With the required fields present, a missing direction validates, `"OUT"` validates to `out`, and `"sideways"` is rejected. |
| Ledger.AddInvoice | api/projects.js:69-75 | The line is appended after every existing line. Nothing else in the project changes. |
| Ledger.UpdateInvoice | api/projects.js:77-84 | The first line with the id is replaced and every other line is kept. With no such line, the project is unchanged. |
| Ledger.DeleteInvoice | api/projects.js:86-91 | No line with the id remains. Every other line is kept, in order. Nothing else in the project changes. |
| Ledger.DeleteUndoesAdd | api/projects.js:69-91 | Deleting the id of a freshly appended line with a new id restores the project. |
| Ledger.DeleteIdempotent | api/projects.js:86-91 | Deleting twice is the same as deleting once. |
| Ledger.DeleteRemovesExactlyThatId | api/projects.js:86-91 | A line survives if and only if its id differs. The surviving and removed line counts add up to the ledger size. |
| Billing.WorkEntriesForProject | api/projects.js:181-200 | The join succeeds if and only if every read succeeds. Otherwise it fails with the error of the first failing read: tasks, then objectives, then work entries. |
| Billing.TaskIdsForProject | api/projects.js:197-200 | A task id is returned if and only if a stored task with that id belongs to the project. There are at most as many ids as stored tasks. |
| Billing.ObjectiveIdsForTasks | api/projects.js:192-195 | An objective id is returned if and only if a stored objective with that id is related to one of the given tasks. There are at most as many ids as stored objectives. |
| Billing.WorkEntriesForObjectives | api/projects.js:187-190 | An entry is returned if and only if it is stored, is on one of the given objectives, and passes the extra filter. There are at most as many entries as stored. |
| Billing.WorkEntriesForProjectExact | api/projects.js:181-200 | An entry is returned if and only if it is stored, its objective's related task belongs to the project, and it passes the extra filter. |
| Billing.NoTasksNoWorkEntries | api/projects.js:192-200 | A project without tasks yields an empty result, not an error. |
| Billing.NoReachableWorkEntries | api/projects.js:181-200 | When no stored entry reaches the project through a task and an objective, the join yields an empty result, not an error. This covers no tasks, tasks without objectives, and objectives without entries. |
| Billing.ExtraFilterOnlyRemoves | api/projects.js:187-190 | The creation-time filter selects, in order, the unfiltered join's entries created inside the window. |
| Billing.ReduceWorkEntries | api/projects.js:177-179 | No entries give 0. Non-negative times give a non-negative total. |
| Billing.GetFilterForMonth | api/projects.js:230-234 | The window contains `now`. |
| Billing.MonthFilterMembership | api/projects.js:230-234 | An instant lies in the month window if and only if its UTC year and month are the current ones. |
| Billing.CalculateTotalExecuted | api/projects.js:167-170 | Succeeds if and only if every read succeeds. The result is the summed time of the joined entries, and is non-negative when the stored entry times are. |
| Billing.CalculateThisMonthExecuted | api/projects.js:172-175 | Succeeds if and only if every read succeeds. The result is the summed time of the unfiltered join's entries created in the current month's window. |
| Billing.ExecutedHoursFor | api/projects.js:152-175 | The computation fails if and only if a read fails. The month and total figures are the summed seconds divided by 3600. |
| Billing.ExecutedMonthAtMostTotal | api/projects.js:167-175 | With non-negative times, 0 ≤ this month's executed hours ≤ total executed hours. |
| Billing.NoWorkEntriesZeroHours | api/projects.js:152-200 | A project that no stored work entry reaches has executed 0 hours this month and 0 in total. |
| Billing.IsThisMonth | api/projects.js:226 | Comparing `YYYY/MM` keys holds if and only if the instant lies in the current month's window. |
| Billing.ReduceInvoicesFieldWithCondition | api/projects.js:222-224 | An empty ledger gives 0. Non-negative fields give a non-negative sum. A summed line must carry the field. |
| Billing.CalculateThisMonthBillingHours | api/projects.js:202-205 | The billed hours of exactly the lines whose invoicing date lies in the current month's window. Only those lines must carry billed hours; older lines need not. |
| Billing.CalculateThisMonthBillingAmount | api/projects.js:207-210 | The amounts of exactly the lines whose invoicing date lies in the current month's window. |
| Billing.CalculateTotalBillingHours | api/projects.js:212-215 | The billed hours of every line of the ledger. |
| Billing.CalculateTotalBillingAmount | api/projects.js:217-220 | The amounts of every line of the ledger. |
| Billing.ReduceTwoLines | api/projects.js:222-224 | Over two lines, each line contributes its field exactly when it meets the condition. |
| Billing.TotalSumsWholeLedger | api/projects.js:212-220 | The `i => true` condition sums the field over the whole ledger. |
| Billing.BilledTotalsSplitByMonth | api/projects.js:202-220 | Each total is this month's figure plus the sum over the lines outside this month. |
| Billing.BilledMonthAtMostTotal | api/projects.js:202-220 | With non-negative hours and amounts, 0 ≤ each month figure ≤ the matching total. |
| Billing.BillingScenarioMonth | test/setup/setup.billing.js:49-77 | 80 h / 4400 invoiced now and 5 h / 275 invoiced before this month give 80 h / 4400 this month. |
| Billing.BillingScenarioTotals | test/setup/setup.billing.js:49-77 | The same two lines give 85 h / 4675 in total. |
| Billing.EmptyLedgerBillsNothing | api/projects.js:222-228 | An empty ledger gives 0 for all four figures. |
| Billing.AwaitAll | api/projects.js:137-148 | Success if and only if every result succeeds, with all values in order. A failure carries the error of a failed result. |
| Billing.MergeRows | api/projects.js:138-145 | Row i holds project i and the i-th executed hours. It also holds the billed hours and amounts of exactly project i's lines invoiced in the current month's window, and those of its whole ledger. |
| Billing.CalculateBillingVariables | api/projects.js:130-150 | Fails as a whole if and only if some project's hours fail. Otherwise there is one row per project at the same index, holding the project, its executed hours and its four ledger figures. |
| Billing.CalculateExecutedHoursForProjects | api/projects.js:152-165 | One hours computation per project, in project order. Each succeeds if and only if every read succeeds. Its total times 3600 is the summed time of all the project's joined entries. Its month figure times 3600 is the summed time of those created in the current month's window. |
| Billing.ProjectsBilling | api/projects.js:117-165 | The report fails if and only if there is a project and a read fails. Row i holds project i. Its executed figures times 3600 are the summed seconds. Its billed hours and amount this month are the sums over the lines invoiced in the current month's window. Its billed totals are the sums over the whole ledger. |
| Billing.GetProjectsBilling | api/projects.js:104-126 | Succeeds if and only if there is no active project or every read succeeds. The rows are exactly the active projects, in stored name order. Each row's executed figures times 3600 are its project's summed seconds. Its four billed figures are its ledger's sums this month and in total. Only the active projects' ledgers must carry billed hours. |

## Left out

- `api/users.js` is not part of this model. The ownership check compares user ids directly.
- Store mechanics are not modelled: connection, `populate`, `lean`, projections and the store's own sort. Sorting by name is a precondition: the stored sequence is already in name order.
- Promise concurrency is not modelled. Each `Promise.all` succeeds or fails as a whole, and a failure carries the error of one failed element (`AwaitAll` and `CalculateBillingVariables` state this for arbitrary per-project results).
- Billing.ExecutedHoursFor: the store is one snapshot (`Db`) with one read result per collection, so a project's month and total computations fail together and with the same error. Reads that fail independently, such as the total failing while the month succeeds, or one project's reads failing while another's succeed, cannot be expressed in this model.
- The HTTP handlers, routes and JSON responses are left out. So are `createProject`, `updateProject`, `getProjects`, the objective create, update and delete handlers, and invoice rendering and PDF export. None of these computes anything beyond a store read, a store write or rendering.
- The project-level part of the ledger edits is not modelled: looking up the project by id, and the store's result. The edits are pure functions of one project's ledger.
- Ledger.AddInvoice: a stored line always carries the fields the invoice schema requires: description, amount, invoicing date and creator. The append (`$push`) and the positional replace (`$set`) run no schema validation, so the real store can hold a line without them, but the model's line record cannot express one. In the source, a line without an invoicing date counts as invoiced this month, because the date library reads a missing date as the current instant. A line without an amount makes both amount sums NaN. Neither behaviour is modelled.
- Objectives.ComposeAnchor: the route's year, month and day are taken as already-parsed integers. The date parser's expansion of a two-digit year (`24` to 2024, `69` to 1969) and its handling of non-numeric text are not modelled.
- Objectives.Anchor: a given month outside 1..12, or a given day outside the month, is excluded by a precondition. The date library would mark such a date invalid and the query would fail.
- Objectives.Anchor: where the composed date does not exist, the anchor is the clamped date rather than the library's invalid date (see Findings).
- Billing.ReduceInvoicesFieldWithCondition: a summed line must carry `billed_hours` when that field is reduced. An absent value would make the sum NaN, and that case is excluded by a precondition.
- Invoice.Validate: lower-casing covers ASCII letters only. Mongoose's string casting of non-string values is not modelled, and neither are explicit `null` field values.
- `groupByLevel`'s creation of extra buckets for unknown levels cannot happen in the model, because the level is an enumeration.
- Floating-point rounding of sums and of the division by 3600 is not modelled: numbers are exact reals.
- Objectives.GetSummary: `Math.floor` is modelled as `real.Floor`. The count identities hold under the 0..1 progress convention.

## Findings

| source | as written | input that shows it | evidently intended | confidence | as-written member | corrected member |
|---|---|---|---|---|---|---|
| api/objectives.js:126-129 | A missing day is filled in with today's day-of-month, whatever the requested month | `GET /objectives/2024/02` on 2024-03-31 composes 2024-02-31, which the date library rejects as invalid | A month-only request selects February 2024 whatever today's date | not executed | Objectives.ComposeAnchor, Objectives.MonthOnlyRequestOnThe31st | Objectives.Anchor, Objectives.SelectedWindowIgnoresDefaults |
| api/objectives.js:126-129 | A missing month and day are filled in with today's, whatever the requested year | `GET /objectives/2023` on 2024-02-29 composes 2023-02-29, which the date library rejects as invalid | A year-only request selects the year 2023 whatever today's date | not executed | Objectives.ComposeAnchor, Objectives.YearOnlyRequestOnLeapDay | Objectives.Anchor, Objectives.SelectedWindowIgnoresDefaults |

=== FILE: billing.dfy ===
/**
  The billing report: for every project, the hours executed (work entries
  reached through the project's tasks and their objectives, in seconds,
  divided by 3600) this month and in total, and the hours and amounts billed
  (ledger lines) this month and in total, merged into one row per project in
  the order the projects were loaded.

  Store reads become reads of the three collections in a `Db`, each of which
  may fail; the concurrent per-project computations become a map followed by
  `AwaitAll`; the current instant `now` is a parameter.
 */
module Billing {
  import opened Wrappers
  import opened Seqs
  import opened Calendar
  import opened DateFormat
  import opened Ids
  import opened Invoice
  import opened Ledger
  import Objectives

  type Objective = Objectives.Objective

  datatype StoreError = StoreError(message: string)

  datatype Task = Task(id: TaskId, project: ProjectId, createdBy: UserId)

  datatype WorkEntry = WorkEntry(id: WorkEntryId, objective: ObjectiveId, time: real, createdTs: Instant)

  /** The collections the join reads, each read either succeeding or failing. */
  datatype Db = Db(
    tasks: Result<seq<Task>, StoreError>,
    objectives: Result<seq<Objective>, StoreError>,
    workEntries: Result<seq<WorkEntry>, StoreError>)
  {
    predicate Readable() {
      tasks.Success? && objectives.Success? && workEntries.Success?
    }
  }

  // ---------------------------------------------------------------- the three-hop join

  function BelongsTo(p: ProjectId): Task -> bool {
    (t: Task) => t.project == p
  }

  function IdOfTask(t: Task): TaskId {
    t.id
  }

  function RelatedToAny(taskIds: seq<TaskId>): Objective -> bool {
    (o: Objective) => o.relatedTask in taskIds
  }

  function IdOfObjective(o: Objective): ObjectiveId {
    o.id
  }

  predicate CreatedWithin(filter: Option<Window>, t: Instant) {
    filter.None? || filter.value.Contains(t)
  }

  function ForObjectives(objectiveIds: seq<ObjectiveId>, filter: Option<Window>): WorkEntry -> bool {
    (e: WorkEntry) => e.objective in objectiveIds && CreatedWithin(filter, e.createdTs)
  }

  /** `getTasksForProject`: the ids of the project's tasks, and only those. */
  function TaskIdsForProject(tasks: seq<Task>, p: ProjectId): (r: seq<TaskId>)
    ensures |r| <= |tasks|
    ensures forall tid :: tid in r <==> TaskOfProject(tid, tasks, p)
  {
    FilterMembership(tasks, BelongsTo(p));
    MapMembership(Filter(tasks, BelongsTo(p)), IdOfTask);
    Map(Filter(tasks, BelongsTo(p)), IdOfTask)
  }

  /** `getObjectivesForTasks`: the ids of the objectives related to any of the tasks, and only those. */
  function ObjectiveIdsForTasks(objectives: seq<Objective>, taskIds: seq<TaskId>): (r: seq<ObjectiveId>)
    ensures |r| <= |objectives|
    ensures forall oid :: oid in r <==> RelatedObjective(oid, objectives, taskIds)
  {
    FilterMembership(objectives, RelatedToAny(taskIds));
    MapMembership(Filter(objectives, RelatedToAny(taskIds)), IdOfObjective);
    Map(Filter(objectives, RelatedToAny(taskIds)), IdOfObjective)
  }

  /** Some stored objective with id `oid` is related to one of the tasks. */
  predicate RelatedObjective(oid: ObjectiveId, objectives: seq<Objective>, taskIds: seq<TaskId>) {
    exists o :: o in objectives && o.id == oid && o.relatedTask in taskIds
  }

  /**
    `getWorkEntriesForObjectives`: the stored entries on those objectives that
    also pass the extra filter, in store order.
   */
  function WorkEntriesForObjectives(entries: seq<WorkEntry>, objectiveIds: seq<ObjectiveId>,
                                    filter: Option<Window>): (r: seq<WorkEntry>)
    ensures |r| <= |entries|
    ensures forall e :: e in r <==> e in entries && e.objective in objectiveIds && CreatedWithin(filter, e.createdTs)
  {
    FilterMembership(entries, ForObjectives(objectiveIds, filter));
    Filter(entries, ForObjectives(objectiveIds, filter))
  }

  /**
    `getWorkEntriesForProject`: the join project -> tasks -> objectives -> work
    entries. It fails exactly when a read fails, with the first failing read's
    error in the order the reads are made.
   */
  function WorkEntriesForProject(db: Db, p: ProjectId, filter: Option<Window>): (r: Result<seq<WorkEntry>, StoreError>)
    ensures r.Success? <==> db.Readable()
    ensures db.tasks.Failure? ==> r == Failure(db.tasks.error)
    ensures db.tasks.Success? && db.objectives.Failure? ==> r == Failure(db.objectives.error)
    ensures db.tasks.Success? && db.objectives.Success? && db.workEntries.Failure? ==> r == Failure(db.workEntries.error)
  {
    var tasks :- db.tasks;
    var objectives :- db.objectives;
    var entries :- db.workEntries;
    Success(WorkEntriesForObjectives(entries, ObjectiveIdsForTasks(objectives, TaskIdsForProject(tasks, p)), filter))
  }

  /** The entry's objective is related to a task of project `p`. */
  predicate ReachesProject(e: WorkEntry, tasks: seq<Task>, objectives: seq<Objective>, p: ProjectId) {
    exists o :: o in objectives && o.id == e.objective && TaskOfProject(o.relatedTask, tasks, p)
  }

  predicate TaskOfProject(taskId: TaskId, tasks: seq<Task>, p: ProjectId) {
    exists t :: t in tasks && t.id == taskId && t.project == p
  }

  /**
    The join returns exactly the work entries whose objective's related task
    belongs to the project and that pass the extra filter, in store order.
   */
  lemma WorkEntriesForProjectExact(db: Db, p: ProjectId, filter: Option<Window>)
    requires db.Readable()
    ensures forall e :: e in WorkEntriesForProject(db, p, filter).value <==>
      && e in db.workEntries.value
      && ReachesProject(e, db.tasks.value, db.objectives.value, p)
      && CreatedWithin(filter, e.createdTs)
  {
    var tasks, objectives := db.tasks.value, db.objectives.value;
    var objectiveIds := ObjectiveIdsForTasks(objectives, TaskIdsForProject(tasks, p));
    assert forall e: WorkEntry :: e.objective in objectiveIds <==> ReachesProject(e, tasks, objectives, p);
  }

  /** A project without tasks has no work entries; that is an empty result, not an error. */
  lemma NoTasksNoWorkEntries(db: Db, p: ProjectId, filter: Option<Window>)
    requires db.Readable()
    requires forall t :: t in db.tasks.value ==> t.project != p
    ensures WorkEntriesForProject(db, p, filter) == Success([])
  {
    var tasks, objectives, entries := db.tasks.value, db.objectives.value, db.workEntries.value;
    FilterTrue(tasks, Not(BelongsTo(p)));
    FilterPartitionLength(tasks, BelongsTo(p));
    assert TaskIdsForProject(tasks, p) == [];
    FilterTrue(objectives, Not(RelatedToAny([])));
    FilterPartitionLength(objectives, RelatedToAny([]));
    assert ObjectiveIdsForTasks(objectives, []) == [];
    FilterTrue(entries, Not(ForObjectives([], filter)));
    FilterPartitionLength(entries, ForObjectives([], filter));
  }

  /**
    A project none of whose stored entries reaches it through a task and an
    objective (no tasks, tasks without objectives, or objectives without
    entries) has no work entries; that is an empty result, not an error.
   */
  lemma NoReachableWorkEntries(db: Db, p: ProjectId, filter: Option<Window>)
    requires db.Readable()
    requires forall e :: e in db.workEntries.value ==> !ReachesProject(e, db.tasks.value, db.objectives.value, p)
    ensures WorkEntriesForProject(db, p, filter) == Success([])
  {
    var tasks, objectives, entries := db.tasks.value, db.objectives.value, db.workEntries.value;
    var objectiveIds := ObjectiveIdsForTasks(objectives, TaskIdsForProject(tasks, p));
    assert forall e :: e in entries ==> e.objective !in objectiveIds;
    FilterTrue(entries, Not(ForObjectives(objectiveIds, filter)));
    FilterPartitionLength(entries, ForObjectives(objectiveIds, filter));
  }

  function CreatedIn(w: Window): WorkEntry -> bool {
    (e: WorkEntry) => w.Contains(e.createdTs)
  }

  /** The extra creation-time filter only removes entries from the unfiltered join, keeping order. */
  lemma ExtraFilterOnlyRemoves(db: Db, p: ProjectId, w: Window)
    requires db.Readable()
    ensures WorkEntriesForProject(db, p, Some(w)).value == Filter(WorkEntriesForProject(db, p, None).value, CreatedIn(w))
  {
    var entries := db.workEntries.value;
    var ids := ObjectiveIdsForTasks(db.objectives.value, TaskIdsForProject(db.tasks.value, p));
    FilterFilter(entries, ForObjectives(ids, None), CreatedIn(w));
    FilterCongruence(entries, And(ForObjectives(ids, None), CreatedIn(w)), ForObjectives(ids, Some(w)));
  }

  // ---------------------------------------------------------------- executed hours

  function TimeOf(e: WorkEntry): real {
    e.time
  }

  /** `reduceWorkEntries`: the total `time` of the entries, 0 when there are none. */
  function ReduceWorkEntries(entries: seq<WorkEntry>): (r: real)
    ensures |entries| == 0 ==> r == 0.0
    ensures (forall e :: e in entries ==> e.time >= 0.0) ==> r >= 0.0
  {
    SumNonNegative(entries, TimeOf);
    Sum(Map(entries, TimeOf))
  }

  /**
    `getFilterForMonth(now)`: the window from the start to the end of the
    current UTC month. It holds `now`; `MonthFilterMembership` says which
    other instants it holds.
   */
  function GetFilterForMonth(now: Instant): (w: Window)
    ensures w.Contains(now)
  {
    var today := CivilOf(now);
    MonthWindowMembership(now, today.year, today.month);
    MonthWindow(today.year, today.month)
  }

  /** An instant lies in the current month's window exactly when its UTC year and month are the current ones. */
  lemma MonthFilterMembership(now: Instant, t: Instant)
    ensures GetFilterForMonth(now).Contains(t) <==> CivilOf(t).year == CivilOf(now).year && CivilOf(t).month == CivilOf(now).month
  {
    MonthWindowMembership(t, CivilOf(now).year, CivilOf(now).month);
  }

  /**
    `calculateTotalExecuted`: the seconds of all the project's work entries.
    It fails exactly when a read fails, and is non-negative when the stored
    entry times are.
   */
  function CalculateTotalExecuted(db: Db, p: ProjectId): (r: Result<real, StoreError>)
    ensures r.Success? <==> db.Readable()
    ensures r.Success? ==> r.value == ReduceWorkEntries(WorkEntriesForProject(db, p, None).value)
    ensures r.Success? ==> ((forall e :: e in db.workEntries.value ==> e.time >= 0.0) ==> r.value >= 0.0)
  {
    var entries :- WorkEntriesForProject(db, p, None);
    WorkEntriesForProjectExact(db, p, None);
    Success(ReduceWorkEntries(entries))
  }

  /**
    `calculateThisMonthExecuted`: the seconds of the project's work entries
    created in the current month, i.e. the unfiltered join's entries inside
    the month window. It fails exactly when a read fails.
   */
  function CalculateThisMonthExecuted(db: Db, p: ProjectId, now: Instant): (r: Result<real, StoreError>)
    ensures r.Success? <==> db.Readable()
    ensures r.Success? ==> r.value == ReduceWorkEntries(
              Filter(WorkEntriesForProject(db, p, None).value, CreatedIn(GetFilterForMonth(now))))
  {
    var entries :- WorkEntriesForProject(db, p, Some(GetFilterForMonth(now)));
    ExtraFilterOnlyRemoves(db, p, GetFilterForMonth(now));
    Success(ReduceWorkEntries(entries))
  }

  datatype ExecutedHours = ExecutedHours(month: real, total: real)

  /**
    The executed hours of one project: seconds of this month's entries and of
    all entries, each divided by 3600. Fails exactly when a store read fails.
   */
  function ExecutedHoursFor(db: Db, p: ProjectId, now: Instant): (r: Result<ExecutedHours, StoreError>)
    ensures r.Success? <==> db.Readable()
    ensures r.Success? ==> r.value.month * 3600.0 == CalculateThisMonthExecuted(db, p, now).value
    ensures r.Success? ==> r.value.total * 3600.0 == CalculateTotalExecuted(db, p).value
  {
    match CalculateThisMonthExecuted(db, p, now)
    case Failure(e) => Failure(e)
    case Success(month) => Success(ExecutedHours(month / 3600.0, CalculateTotalExecuted(db, p).value / 3600.0))
  }

  /** With non-negative entry times, this month's executed hours never exceed the total. */
  lemma ExecutedMonthAtMostTotal(db: Db, p: ProjectId, now: Instant)
    requires db.Readable()
    requires forall e :: e in db.workEntries.value ==> e.time >= 0.0
    ensures 0.0 <= ExecutedHoursFor(db, p, now).value.month <= ExecutedHoursFor(db, p, now).value.total
  {
    var all := WorkEntriesForProject(db, p, None).value;
    var month := Filter(all, CreatedIn(GetFilterForMonth(now)));
    WorkEntriesForProjectExact(db, p, None);
    assert forall e :: e in all ==> e.time >= 0.0;
    FilteredSumAtMost(all, CreatedIn(GetFilterForMonth(now)), TimeOf);
    FilterMembership(all, CreatedIn(GetFilterForMonth(now)));
    SumNonNegative(month, TimeOf);
    assert 0.0 <= ReduceWorkEntries(month) <= ReduceWorkEntries(all);
  }

  /**
    A project with no reachable work entries (no tasks, tasks without
    objectives, or objectives without entries) has executed 0 hours this
    month and in total.
   */
  lemma NoWorkEntriesZeroHours(db: Db, p: ProjectId, now: Instant)
    requires db.Readable()
    requires forall e :: e in db.workEntries.value ==> !ReachesProject(e, db.tasks.value, db.objectives.value, p)
    ensures ExecutedHoursFor(db, p, now) == Success(ExecutedHours(0.0, 0.0))
  {
    NoReachableWorkEntries(db, p, None);
    var all := WorkEntriesForProject(db, p, None).value;
    assert all == [];
    assert Filter(all, CreatedIn(GetFilterForMonth(now))) == [];
    assert ReduceWorkEntries([]) == 0.0;
    assert CalculateTotalExecuted(db, p) == Success(0.0);
    assert CalculateThisMonthExecuted(db, p, now) == Success(0.0);
    var h := ExecutedHoursFor(db, p, now);
    assert h.Success? && h.value.month * 3600.0 == 0.0 && h.value.total * 3600.0 == 0.0;
    assert h.value == ExecutedHours(0.0, 0.0);
  }

  // ---------------------------------------------------------------- billed hours and amounts

  /**
    `isThisMonth`: the instant's `YYYY/MM` key equals the current one. The key
    comparison selects exactly the instants of the `getFilterForMonth` window.
   */
  function IsThisMonth(date: Instant, now: Instant): (r: bool)
    ensures r <==> GetFilterForMonth(now).Contains(date)
  {
    MonthKeyInjective(CivilOf(date), CivilOf(now));
    MonthFilterMembership(now, date);
    MonthKey(CivilOf(date)) == MonthKey(CivilOf(now))
  }

  datatype Field = AmountField | BilledHoursField

  predicate HasField(l: InvoiceLine, field: Field) {
    field == AmountField || l.billedHours.Some?
  }

  function FieldOf(field: Field): InvoiceLine -> real {
    (l: InvoiceLine) => match field
      case AmountField => l.amount
      case BilledHoursField => l.billedHours.GetOr(0.0)
  }

  /**
    `reduceInvoicesFieldWithCondition`: the sum of `field` over the lines that
    satisfy `condition`; 0 for an empty ledger. Every summed line must carry
    the field.
   */
  function ReduceInvoicesFieldWithCondition(field: Field, condition: InvoiceLine -> bool,
                                            invoices: seq<InvoiceLine>): (r: real)
    requires forall i :: 0 <= i < |invoices| && condition(invoices[i]) ==> HasField(invoices[i], field)
    ensures |invoices| == 0 ==> r == 0.0
    ensures (forall l :: l in invoices ==> FieldOf(field)(l) >= 0.0) ==> r >= 0.0
  {
    FilterMembership(invoices, condition);
    SumNonNegative(Filter(invoices, condition), FieldOf(field));
    Sum(Map(Filter(invoices, condition), FieldOf(field)))
  }

  function InThisMonth(now: Instant): InvoiceLine -> bool {
    (l: InvoiceLine) => IsThisMonth(l.invoicingDate, now)
  }

  function Always(): InvoiceLine -> bool {
    (l: InvoiceLine) => true
  }

  /** Every line of the ledger records its billed hours. */
  predicate HoursRecorded(invoices: seq<InvoiceLine>) {
    forall i :: 0 <= i < |invoices| ==> invoices[i].billedHours.Some?
  }

  /** Every line invoiced in the current month records its billed hours; older lines need not. */
  predicate MonthHoursRecorded(invoices: seq<InvoiceLine>, now: Instant) {
    forall i :: 0 <= i < |invoices| && GetFilterForMonth(now).Contains(invoices[i].invoicingDate) ==>
      invoices[i].billedHours.Some?
  }

  function InvoicedIn(w: Window): InvoiceLine -> bool {
    (l: InvoiceLine) => w.Contains(l.invoicingDate)
  }

  /** The month condition of the ledger figures is membership in the month window. */
  lemma InThisMonthIsMonthWindow(invoices: seq<InvoiceLine>, now: Instant)
    ensures Filter(invoices, InThisMonth(now)) == Filter(invoices, InvoicedIn(GetFilterForMonth(now)))
  {
    FilterCongruence(invoices, InThisMonth(now), InvoicedIn(GetFilterForMonth(now)));
  }

  /** `calculateThisMonthBillingHours`: the billed hours of the lines invoiced in the current month's window. */
  function CalculateThisMonthBillingHours(p: Project, now: Instant): (r: real)
    requires MonthHoursRecorded(p.invoices, now)
    ensures r == Sum(Map(Filter(p.invoices, InvoicedIn(GetFilterForMonth(now))), FieldOf(BilledHoursField)))
  {
    InThisMonthIsMonthWindow(p.invoices, now);
    ReduceInvoicesFieldWithCondition(BilledHoursField, InThisMonth(now), p.invoices)
  }

  /** `calculateThisMonthBillingAmount`: the amounts of the lines invoiced in the current month's window. */
  function CalculateThisMonthBillingAmount(p: Project, now: Instant): (r: real)
    ensures r == Sum(Map(Filter(p.invoices, InvoicedIn(GetFilterForMonth(now))), FieldOf(AmountField)))
  {
    InThisMonthIsMonthWindow(p.invoices, now);
    ReduceInvoicesFieldWithCondition(AmountField, InThisMonth(now), p.invoices)
  }

  /** `calculateTotalBillingHours`: the billed hours of every line of the ledger. */
  function CalculateTotalBillingHours(p: Project): (r: real)
    requires HoursRecorded(p.invoices)
    ensures r == Sum(Map(p.invoices, FieldOf(BilledHoursField)))
  {
    FilterTrue(p.invoices, Always());
    ReduceInvoicesFieldWithCondition(BilledHoursField, Always(), p.invoices)
  }

  /** `calculateTotalBillingAmount`: the amount of every line of the ledger. */
  function CalculateTotalBillingAmount(p: Project): (r: real)
    ensures r == Sum(Map(p.invoices, FieldOf(AmountField)))
  {
    FilterTrue(p.invoices, Always());
    ReduceInvoicesFieldWithCondition(AmountField, Always(), p.invoices)
  }

  /** The `i => true` condition sums the whole ledger. */
  lemma TotalSumsWholeLedger(field: Field, invoices: seq<InvoiceLine>)
    requires forall i :: 0 <= i < |invoices| ==> HasField(invoices[i], field)
    ensures ReduceInvoicesFieldWithCondition(field, Always(), invoices) == Sum(Map(invoices, FieldOf(field)))
  {
    FilterTrue(invoices, Always());
  }

  /** Each total is this month's figure plus the sum over the lines outside this month. */
  lemma BilledTotalsSplitByMonth(p: Project, now: Instant)
    requires HoursRecorded(p.invoices)
    ensures CalculateTotalBillingHours(p) == CalculateThisMonthBillingHours(p, now)
              + ReduceInvoicesFieldWithCondition(BilledHoursField, Not(InThisMonth(now)), p.invoices)
    ensures CalculateTotalBillingAmount(p) == CalculateThisMonthBillingAmount(p, now)
              + ReduceInvoicesFieldWithCondition(AmountField, Not(InThisMonth(now)), p.invoices)
  {
    TotalSumsWholeLedger(BilledHoursField, p.invoices);
    TotalSumsWholeLedger(AmountField, p.invoices);
    SumSplit(p.invoices, InThisMonth(now), FieldOf(BilledHoursField));
    SumSplit(p.invoices, InThisMonth(now), FieldOf(AmountField));
  }

  /** With non-negative hours and amounts, this month's figures never exceed the totals. */
  lemma BilledMonthAtMostTotal(p: Project, now: Instant)
    requires HoursRecorded(p.invoices)
    requires forall l :: l in p.invoices ==> l.amount >= 0.0 && l.billedHours.GetOr(0.0) >= 0.0
    ensures 0.0 <= CalculateThisMonthBillingHours(p, now) <= CalculateTotalBillingHours(p)
    ensures 0.0 <= CalculateThisMonthBillingAmount(p, now) <= CalculateTotalBillingAmount(p)
  {
    BilledTotalsSplitByMonth(p, now);
    assert forall l :: l in p.invoices ==> FieldOf(BilledHoursField)(l) >= 0.0;
    assert forall l :: l in p.invoices ==> FieldOf(AmountField)(l) >= 0.0;
  }

  /** Over a two-line ledger, each line contributes its field exactly when it meets the condition. */
  lemma ReduceTwoLines(field: Field, condition: InvoiceLine -> bool, a: InvoiceLine, b: InvoiceLine)
    requires condition(a) ==> HasField(a, field)
    requires condition(b) ==> HasField(b, field)
    ensures ReduceInvoicesFieldWithCondition(field, condition, [a, b])
            == (if condition(a) then FieldOf(field)(a) else 0.0) + (if condition(b) then FieldOf(field)(b) else 0.0)
  {
    var lines := [a, b];
    assert lines[1..] == [b];
    var kept := Filter(lines, condition);
    assert Filter([b], condition) == if condition(b) then [b] else [];
    assert kept == (if condition(a) then [a] else []) + (if condition(b) then [b] else []);
    MapAppend(if condition(a) then [a] else [], if condition(b) then [b] else [], FieldOf(field));
    SumAppend(Map(if condition(a) then [a] else [], FieldOf(field)), Map(if condition(b) then [b] else [], FieldOf(field)));
  }

  /** A line invoiced now is in this month; one invoiced before the month's window is not. */
  lemma ScenarioDates(current: InvoiceLine, older: InvoiceLine, now: Instant)
    requires current.invoicingDate == now
    requires older.invoicingDate < GetFilterForMonth(now).start
    ensures GetFilterForMonth(now).Contains(current.invoicingDate)
    ensures !GetFilterForMonth(now).Contains(older.invoicingDate)
  {
  }

  /**
    A ledger with 80 hours / 4400 invoiced now and 5 hours / 275 invoiced
    before this month began bills 80 hours / 4400 this month.
   */
  lemma BillingScenarioMonth(p: Project, current: InvoiceLine, older: InvoiceLine, now: Instant)
    requires current.invoicingDate == now && current.billedHours == Some(80.0) && current.amount == 4400.0
    requires older.invoicingDate < GetFilterForMonth(now).start
    requires older.billedHours == Some(5.0) && older.amount == 275.0
    requires p.invoices == [current, older]
    ensures CalculateThisMonthBillingHours(p, now) == 80.0
    ensures CalculateThisMonthBillingAmount(p, now) == 4400.0
  {
    ScenarioDates(current, older, now);
    MonthHoursOfTwoLines(p, current, older, now);
    MonthAmountOfTwoLines(p, current, older, now);
  }

  /** The month's billed hours of a two-line ledger whose first line is in this month's window and second is not. */
  lemma MonthHoursOfTwoLines(p: Project, current: InvoiceLine, older: InvoiceLine, now: Instant)
    requires GetFilterForMonth(now).Contains(current.invoicingDate)
    requires !GetFilterForMonth(now).Contains(older.invoicingDate)
    requires current.billedHours.Some?
    requires p.invoices == [current, older]
    ensures CalculateThisMonthBillingHours(p, now) == current.billedHours.value
  {
    var f := FieldOf(BilledHoursField);
    PairMonthHoursRecorded(current, older, now);
    FilterPair(current, older, InvoicedIn(GetFilterForMonth(now)));
    SumMapOne(current, f);
    assert f(current) == current.billedHours.value;
    assert CalculateThisMonthBillingHours(p, now) == Sum(Map([current], f));
  }

  /** A two-line ledger whose only line in this month's window records its hours meets `MonthHoursRecorded`. */
  lemma PairMonthHoursRecorded(current: InvoiceLine, older: InvoiceLine, now: Instant)
    requires current.billedHours.Some?
    requires !GetFilterForMonth(now).Contains(older.invoicingDate)
    ensures MonthHoursRecorded([current, older], now)
  {
    var ls := [current, older];
    forall i | 0 <= i < |ls| && GetFilterForMonth(now).Contains(ls[i].invoicingDate)
      ensures ls[i].billedHours.Some?
    {
      assert i == 0;
    }
  }

  /** The month's billed amount of a two-line ledger whose first line is in this month's window and second is not. */
  lemma MonthAmountOfTwoLines(p: Project, current: InvoiceLine, older: InvoiceLine, now: Instant)
    requires GetFilterForMonth(now).Contains(current.invoicingDate)
    requires !GetFilterForMonth(now).Contains(older.invoicingDate)
    requires p.invoices == [current, older]
    ensures CalculateThisMonthBillingAmount(p, now) == current.amount
  {
    FilterPair(current, older, InvoicedIn(GetFilterForMonth(now)));
    SumMapOne(current, FieldOf(AmountField));
  }

  /** The same ledger bills 85 hours / 4675 in total, wherever its lines fall. */
  lemma BillingScenarioTotals(p: Project, current: InvoiceLine, older: InvoiceLine)
    requires current.billedHours == Some(80.0) && current.amount == 4400.0
    requires older.billedHours == Some(5.0) && older.amount == 275.0
    requires p.invoices == [current, older]
    ensures CalculateTotalBillingHours(p) == 85.0
    ensures CalculateTotalBillingAmount(p) == 4675.0
  {
    ReduceTwoLines(BilledHoursField, Always(), current, older);
    ReduceTwoLines(AmountField, Always(), current, older);
  }

  /** An empty ledger bills nothing. */
  lemma EmptyLedgerBillsNothing(p: Project, now: Instant)
    requires p.invoices == []
    ensures CalculateThisMonthBillingHours(p, now) == 0.0
    ensures CalculateThisMonthBillingAmount(p, now) == 0.0
    ensures CalculateTotalBillingHours(p) == 0.0
    ensures CalculateTotalBillingAmount(p) == 0.0
  {
  }

  // ---------------------------------------------------------------- the report

  /** `calculateBillingVariables`' output record: the project's fields and six figures. */
  datatype BillingRow = BillingRow(
    project: Project,
    executedHoursMonth: real,
    executedHoursTotal: real,
    billedHoursMonth: real,
    billedAmountMonth: real,
    billedHoursTotal: real,
    billedAmountTotal: real)

  /**
    `Promise.all`: succeeds with every value, in order, when every result
    succeeds; otherwise fails with the error of a failed result.
   */
  function AwaitAll<T, E>(rs: seq<Result<T, E>>): (r: Result<seq<T>, E>)
    ensures r.Success? <==> forall i :: 0 <= i < |rs| ==> rs[i].Success?
    ensures r.Success? ==> |r.value| == |rs| && forall i :: 0 <= i < |rs| ==> r.value[i] == rs[i].value
    ensures r.Failure? ==> exists i :: 0 <= i < |rs| && rs[i] == Failure(r.error)
  {
    if |rs| == 0 then Success([])
    else match rs[0]
      case Failure(e) => Failure(e)
      case Success(v) =>
        match AwaitAll(rs[1..])
        case Failure(e) => Failure(e)
        case Success(vs) => Success([v] + vs)
  }

  /**
    A report row for project `p` with executed hours `h`: the project itself,
    both executed figures, the billed hours and amounts of the lines invoiced
    in the current month's window, and those of the whole ledger.
   */
  predicate RowOf(row: BillingRow, p: Project, h: ExecutedHours, now: Instant) {
    && row.project == p
    && row.executedHoursMonth == h.month
    && row.executedHoursTotal == h.total
    && row.billedHoursMonth == Sum(Map(Filter(p.invoices, InvoicedIn(GetFilterForMonth(now))), FieldOf(BilledHoursField)))
    && row.billedAmountMonth == Sum(Map(Filter(p.invoices, InvoicedIn(GetFilterForMonth(now))), FieldOf(AmountField)))
    && row.billedHoursTotal == Sum(Map(p.invoices, FieldOf(BilledHoursField)))
    && row.billedAmountTotal == Sum(Map(p.invoices, FieldOf(AmountField)))
  }

  function RowFor(p: Project, h: ExecutedHours, now: Instant): BillingRow
    requires HoursRecorded(p.invoices)
  {
    BillingRow(p, h.month, h.total,
      CalculateThisMonthBillingHours(p, now), CalculateThisMonthBillingAmount(p, now),
      CalculateTotalBillingHours(p), CalculateTotalBillingAmount(p))
  }

  /**
    The `projects.map` merge: row i holds project i, the i-th hours result,
    the billed hours and amounts of project i's lines invoiced in the current
    month's window, and those of its whole ledger.
   */
  function MergeRows(projects: seq<Project>, hours: seq<ExecutedHours>, now: Instant): (rows: seq<BillingRow>)
    requires |hours| == |projects|
    requires forall i :: 0 <= i < |projects| ==> HoursRecorded(projects[i].invoices)
    ensures |rows| == |projects|
    ensures forall i :: 0 <= i < |projects| ==> RowOf(rows[i], projects[i], hours[i], now)
  {
    seq(|projects|, i requires 0 <= i < |projects| => RowFor(projects[i], hours[i], now))
  }

  /**
    `calculateBillingVariables`: fails as a whole when any project's hour
    computation fails; otherwise one row per project at the same index, with
    the project's own fields, the executed hours computed for that index and
    the four ledger figures of that project.
   */
  function CalculateBillingVariables<E>(projects: seq<Project>, hours: seq<Result<ExecutedHours, E>>,
                                        now: Instant): (r: Result<seq<BillingRow>, E>)
    requires |hours| == |projects|
    requires forall i :: 0 <= i < |projects| ==> HoursRecorded(projects[i].invoices)
    ensures r.Success? <==> forall i :: 0 <= i < |hours| ==> hours[i].Success?
    ensures r.Failure? ==> exists i :: 0 <= i < |hours| && hours[i] == Failure(r.error)
    ensures r.Success? ==> |r.value| == |projects|
    ensures r.Success? ==> forall i :: 0 <= i < |projects| ==>
      RowOf(r.value[i], projects[i], hours[i].value, now)
  {
    var hs :- AwaitAll(hours);
    Success(MergeRows(projects, hs, now))
  }

  /**
    `calculateExecutedHoursForProjects`: one hour computation per project, in
    project order. Each succeeds exactly when the store is readable; its total
    is the seconds of all the project's entries and its month figure the
    seconds of those created in the current month's window, both over 3600.
   */
  function CalculateExecutedHoursForProjects(db: Db, projects: seq<Project>, now: Instant)
    : (r: seq<Result<ExecutedHours, StoreError>>)
    ensures |r| == |projects|
    ensures forall i :: 0 <= i < |projects| ==> (r[i].Success? <==> db.Readable())
    ensures forall i :: 0 <= i < |projects| && r[i].Success? ==>
      && r[i].value.total * 3600.0 == ReduceWorkEntries(WorkEntriesForProject(db, projects[i].id, None).value)
      && r[i].value.month * 3600.0 == ReduceWorkEntries(
           Filter(WorkEntriesForProject(db, projects[i].id, None).value, CreatedIn(GetFilterForMonth(now))))
  {
    Map(projects, (p: Project) => ExecutedHoursFor(db, p.id, now))
  }

  /**
    The row's executed figures, times 3600, are the seconds the store records
    for its project this month and in total.
   */
  predicate ExecutedOf(row: BillingRow, db: Db, now: Instant) {
    && db.Readable()
    && row.executedHoursMonth * 3600.0 == CalculateThisMonthExecuted(db, row.project.id, now).value
    && row.executedHoursTotal * 3600.0 == CalculateTotalExecuted(db, row.project.id).value
  }

  /**
    The billing pipeline over loaded projects. It fails exactly when a store
    read fails and there is at least one project to compute hours for.
   */
  function ProjectsBilling(db: Db, projects: seq<Project>, now: Instant): (r: Result<seq<BillingRow>, StoreError>)
    requires forall i :: 0 <= i < |projects| ==> HoursRecorded(projects[i].invoices)
    ensures r.Success? <==> |projects| == 0 || db.Readable()
    ensures r.Success? ==> |r.value| == |projects|
    ensures r.Success? ==> forall i :: 0 <= i < |projects| ==>
      r.value[i].project == projects[i] && ExecutedOf(r.value[i], db, now)
    ensures r.Success? ==> forall i :: 0 <= i < |projects| ==>
      RowOf(r.value[i], projects[i], ExecutedHoursFor(db, projects[i].id, now).value, now)
  {
    var hours := CalculateExecutedHoursForProjects(db, projects, now);
    assert |projects| > 0 ==> (hours[0].Success? <==> db.Readable());
    var r := CalculateBillingVariables(projects, hours, now);
    assert r.Success? ==> forall i :: 0 <= i < |projects| ==> ExecutedOf(r.value[i], db, now) by {
      if r.Success? {
        forall i | 0 <= i < |projects| ensures ExecutedOf(r.value[i], db, now) {
          ExecutedRow(db, projects[i].id, now, hours[i], r.value[i]);
        }
      }
    }
    r
  }

  /** A row whose executed figures are those of a successful hours computation for `p` is `ExecutedOf`. */
  lemma ExecutedRow(db: Db, p: ProjectId, now: Instant, h: Result<ExecutedHours, StoreError>, row: BillingRow)
    requires h.Success? && db.Readable() && row.project.id == p
    requires h.value.total * 3600.0 == ReduceWorkEntries(WorkEntriesForProject(db, p, None).value)
    requires h.value.month * 3600.0
             == ReduceWorkEntries(Filter(WorkEntriesForProject(db, p, None).value, CreatedIn(GetFilterForMonth(now))))
    requires row.executedHoursMonth == h.value.month && row.executedHoursTotal == h.value.total
    ensures ExecutedOf(row, db, now)
  {
  }

  /** Lexicographic order of names, as the store sorts them. */
  predicate NameLe(a: string, b: string) {
    |a| == 0 || (|b| > 0 && (a[0] < b[0] || (a[0] == b[0] && NameLe(a[1..], b[1..]))))
  }

  predicate NameOrder(p: Project, q: Project) {
    NameLe(p.name, q.name)
  }

  predicate IsActive(p: Project) {
    p.active
  }

  /**
    `getProjectsBilling`: the active projects, loaded in name order, each
    with its row; the report lists only active projects and keeps name order.
   */
  function GetProjectsBilling(db: Db, stored: seq<Project>, now: Instant): (r: Result<seq<BillingRow>, StoreError>)
    requires SortedBy(stored, NameOrder)
    requires forall i :: 0 <= i < |stored| && stored[i].active ==> HoursRecorded(stored[i].invoices)
    ensures r.Success? <==> |Filter(stored, IsActive)| == 0 || db.Readable()
    ensures r.Success? ==> |r.value| == |Filter(stored, IsActive)|
    ensures r.Success? ==> forall i :: 0 <= i < |r.value| ==>
              r.value[i].project == Filter(stored, IsActive)[i] && r.value[i].project.active
    ensures r.Success? ==> forall i, j :: 0 <= i < j < |r.value| ==>
              NameLe(r.value[i].project.name, r.value[j].project.name)
    ensures r.Success? ==> forall i :: 0 <= i < |r.value| ==> ExecutedOf(r.value[i], db, now)
    ensures r.Success? ==> forall i :: 0 <= i < |r.value| ==>
              RowOf(r.value[i], r.value[i].project, ExecutedHoursFor(db, r.value[i].project.id, now).value, now)
  {
    ActiveLedgersRecordHours(stored);
    ActiveBilling(db, stored, now);
    var r := ProjectsBilling(db, Filter(stored, IsActive), now);
    if r.Success? then ActiveRowsInNameOrder(stored, r.value); r else r
  }

  /** The billing pipeline run over the active projects keeps them, in the same positions. */
  lemma ActiveBilling(db: Db, stored: seq<Project>, now: Instant)
    requires forall i :: 0 <= i < |Filter(stored, IsActive)| ==> Filter(stored, IsActive)[i].active
    requires forall i :: 0 <= i < |Filter(stored, IsActive)| ==> HoursRecorded(Filter(stored, IsActive)[i].invoices)
    ensures var r := ProjectsBilling(db, Filter(stored, IsActive), now);
      && (r.Success? <==> |Filter(stored, IsActive)| == 0 || db.Readable())
      && (r.Success? ==> |r.value| == |Filter(stored, IsActive)|)
      && (r.Success? ==> forall i :: 0 <= i < |r.value| ==>
            r.value[i].project == Filter(stored, IsActive)[i] && r.value[i].project.active)
  {
    var active := Filter(stored, IsActive);
    var r := ProjectsBilling(db, active, now);
    if r.Success? {
      assert |r.value| == |active|;
      forall i | 0 <= i < |r.value| ensures r.value[i].project == active[i] && r.value[i].project.active {
      }
    }
  }

  /** Rows that keep the active projects of a name-sorted store in place are in name order. */
  lemma ActiveRowsInNameOrder(stored: seq<Project>, rows: seq<BillingRow>)
    requires SortedBy(stored, NameOrder)
    requires |rows| == |Filter(stored, IsActive)|
    requires forall i :: 0 <= i < |rows| ==> rows[i].project == Filter(stored, IsActive)[i]
    ensures forall i, j :: 0 <= i < j < |rows| ==> NameLe(rows[i].project.name, rows[j].project.name)
  {
    ActiveInNameOrder(stored);
  }

  /** Filtering the name-sorted store by `active` keeps name order. */
  lemma ActiveInNameOrder(stored: seq<Project>)
    requires SortedBy(stored, NameOrder)
    ensures forall i, j :: 0 <= i < j < |Filter(stored, IsActive)| ==>
              NameLe(Filter(stored, IsActive)[i].name, Filter(stored, IsActive)[j].name)
  {
    FilterPreservesSorted(stored, IsActive, NameOrder);
  }

  /** The active projects' ledgers record billed hours when every active stored ledger does. */
  lemma ActiveLedgersRecordHours(stored: seq<Project>)
    requires forall i :: 0 <= i < |stored| && stored[i].active ==> HoursRecorded(stored[i].invoices)
    ensures forall i :: 0 <= i < |Filter(stored, IsActive)| ==> Filter(stored, IsActive)[i].active
    ensures forall i :: 0 <= i < |Filter(stored, IsActive)| ==> HoursRecorded(Filter(stored, IsActive)[i].invoices)
  {
    var active := Filter(stored, IsActive);
    forall i | 0 <= i < |active|
      ensures active[i].active && HoursRecorded(active[i].invoices)
    {
      assert active[i] in stored && IsActive(active[i]);
      var j :| 0 <= j < |stored| && stored[j] == active[i];
    }
  }
}

=== FILE: calendar.dfy ===
/**
  Proleptic Gregorian calendar arithmetic in UTC, as the date library the
  handlers rely on performs it: leap years, days per month, the number of
  days since 1970-01-01, and the inclusive millisecond windows of a calendar
  day, month and year (`startOf(...)` through `endOf(...)`).

  An instant is a whole number of milliseconds since 1970-01-01T00:00:00Z.
 */
module Calendar {

  type Instant = int

  const MsPerDay: int := 86_400_000

  datatype Date = Date(year: int, month: int, day: int)

  /** An inclusive range of instants, `start <= t <= end`. */
  datatype Window = Window(start: Instant, end: Instant) {
    predicate Contains(t: Instant) {
      start <= t <= end
    }
  }

  predicate IsLeapYear(y: int) {
    y % 4 == 0 && (y % 100 != 0 || y % 400 == 0)
  }

  function DaysInYear(y: int): int {
    if IsLeapYear(y) then 366 else 365
  }

  function DaysInMonth(y: int, m: int): int
    requires 1 <= m <= 12
  {
    if m == 2 then (if IsLeapYear(y) then 29 else 28)
    else if m == 4 || m == 6 || m == 9 || m == 11 then 30
    else 31
  }

  /** A year, month and day that denote a real calendar date. */
  predicate ValidDate(d: Date) {
    1 <= d.month <= 12 && 1 <= d.day <= DaysInMonth(d.year, d.month)
  }

  /** Lexicographic order on dates: `a` is an earlier calendar day than `b`. */
  predicate Before(a: Date, b: Date) {
    a.year < b.year
    || (a.year == b.year && a.month < b.month)
    || (a.year == b.year && a.month == b.month && a.day < b.day)
  }

  /** Days of year `y` that precede the first of month `m` (`m == 13` gives the whole year). */
  function DaysBeforeMonth(y: int, m: int): int
    requires 1 <= m <= 13
  {
    (if m == 1 then 0 else if m == 2 then 31 else if m == 3 then 59
     else if m == 4 then 90 else if m == 5 then 120 else if m == 6 then 151
     else if m == 7 then 181 else if m == 8 then 212 else if m == 9 then 243
     else if m == 10 then 273 else if m == 11 then 304 else if m == 12 then 334
     else 365)
    + (if m > 2 && IsLeapYear(y) then 1 else 0)
  }

  /** Leap years among 1..x (for x >= 0), extended to all integers by floor division. */
  function LeapsThrough(x: int): int {
    x / 4 - x / 100 + x / 400
  }

  /** Days from 1970-01-01 to January 1st of year `y` (negative before 1970). */
  function DaysBeforeYear(y: int): int {
    365 * (y - 1970) + LeapsThrough(y - 1) - LeapsThrough(1969)
  }

  /** The day number of a date: 0 for 1970-01-01. */
  function EpochDay(d: Date): int
    requires 1 <= d.month <= 12
  {
    DaysBeforeYear(d.year) + DaysBeforeMonth(d.year, d.month) + d.day - 1
  }

  lemma DaysBeforeMonthStep(y: int, m: int)
    requires 1 <= m <= 12
    ensures DaysBeforeMonth(y, m + 1) == DaysBeforeMonth(y, m) + DaysInMonth(y, m)
  {
  }

  lemma DaysBeforeMonthWholeYear(y: int)
    ensures DaysBeforeMonth(y, 1) == 0
    ensures DaysBeforeMonth(y, 13) == DaysInYear(y)
  {
  }

  lemma {:induction false} DaysBeforeMonthMonotone(y: int, m1: int, m2: int)
    requires 1 <= m1 <= m2 <= 13
    ensures DaysBeforeMonth(y, m1) <= DaysBeforeMonth(y, m2)
    decreases m2 - m1
  {
    if m1 < m2 {
      DaysBeforeMonthStep(y, m1);
      DaysBeforeMonthMonotone(y, m1 + 1, m2);
    }
  }

  lemma FloorDivStep(x: int)
    ensures x / 4 - (x - 1) / 4 == (if x % 4 == 0 then 1 else 0)
    ensures x / 100 - (x - 1) / 100 == (if x % 100 == 0 then 1 else 0)
    ensures x / 400 - (x - 1) / 400 == (if x % 400 == 0 then 1 else 0)
  {
  }

  /** Year `x` adds one leap year to the count exactly when it is a leap year. */
  lemma LeapsThroughStep(x: int)
    ensures LeapsThrough(x) == LeapsThrough(x - 1) + (if IsLeapYear(x) then 1 else 0)
  {
    FloorDivStep(x);
  }

  /** Consecutive years are `DaysInYear` apart. */
  lemma DaysBeforeYearStep(y: int)
    ensures DaysBeforeYear(y + 1) == DaysBeforeYear(y) + DaysInYear(y)
  {
    LeapsThroughStep(y);
    assert DaysBeforeYear(y + 1) == 365 * (y - 1970) + 365 + LeapsThrough(y) - LeapsThrough(1969);
  }

  lemma {:induction false} DaysBeforeYearMonotone(y1: int, y2: int)
    requires y1 < y2
    ensures DaysBeforeYear(y1 + 1) <= DaysBeforeYear(y2)
    decreases y2 - y1
  {
    DaysBeforeYearStep(y1 + 1);
    if y1 + 1 < y2 {
      DaysBeforeYearMonotone(y1 + 1, y2);
    }
  }

  /** A valid date's day number lies inside its month, which lies inside its year. */
  lemma EpochDayBounds(d: Date)
    requires ValidDate(d)
    ensures DaysBeforeYear(d.year) <= DaysBeforeYear(d.year) + DaysBeforeMonth(d.year, d.month) <= EpochDay(d)
    ensures EpochDay(d) < DaysBeforeYear(d.year) + DaysBeforeMonth(d.year, d.month + 1)
    ensures DaysBeforeYear(d.year) + DaysBeforeMonth(d.year, d.month + 1) <= DaysBeforeYear(d.year + 1)
  {
    DaysBeforeMonthStep(d.year, d.month);
    DaysBeforeMonthMonotone(d.year, 1, d.month);
    DaysBeforeMonthMonotone(d.year, d.month + 1, 13);
    DaysBeforeMonthWholeYear(d.year);
    DaysBeforeYearStep(d.year);
  }

  /** Earlier valid dates have smaller day numbers. */
  lemma EpochDayStrictlyMonotone(a: Date, b: Date)
    requires ValidDate(a) && ValidDate(b)
    requires Before(a, b)
    ensures EpochDay(a) < EpochDay(b)
  {
    EpochDayBounds(a);
    EpochDayBounds(b);
    if a.year < b.year {
      DaysBeforeYearMonotone(a.year, b.year);
    } else if a.month < b.month {
      DaysBeforeMonthMonotone(a.year, a.month + 1, b.month);
    }
  }

  /** The calendar day after `d`. */
  function NextDay(d: Date): (r: Date)
    requires ValidDate(d)
    ensures ValidDate(r) && Before(d, r)
    ensures EpochDay(r) == EpochDay(d) + 1
  {
    DaysBeforeMonthStep(d.year, d.month);
    DaysBeforeMonthWholeYear(d.year);
    DaysBeforeYearStep(d.year);
    if d.day < DaysInMonth(d.year, d.month) then Date(d.year, d.month, d.day + 1)
    else if d.month < 12 then Date(d.year, d.month + 1, 1)
    else Date(d.year + 1, 1, 1)
  }

  /** `startOf('day')` .. `endOf('day')` of a date. */
  function DayWindow(d: Date): Window
    requires 1 <= d.month <= 12
  {
    Window(EpochDay(d) * MsPerDay, (EpochDay(d) + 1) * MsPerDay - 1)
  }

  /** `startOf('month')` .. `endOf('month')` of year `y`, month `m`. */
  function MonthWindow(y: int, m: int): Window
    requires 1 <= m <= 12
  {
    Window((DaysBeforeYear(y) + DaysBeforeMonth(y, m)) * MsPerDay,
           (DaysBeforeYear(y) + DaysBeforeMonth(y, m + 1)) * MsPerDay - 1)
  }

  /** `startOf('year')` .. `endOf('year')` of year `y`. */
  function YearWindow(y: int): Window {
    Window(DaysBeforeYear(y) * MsPerDay, DaysBeforeYear(y + 1) * MsPerDay - 1)
  }

  /**
    For one valid anchor date the day window lies inside the month window,
    which lies inside the year window, and each window is non-empty.
   */
  lemma WindowsNest(d: Date)
    requires ValidDate(d)
    ensures YearWindow(d.year).start <= MonthWindow(d.year, d.month).start
    ensures MonthWindow(d.year, d.month).start <= DayWindow(d).start
    ensures DayWindow(d).start <= DayWindow(d).end
    ensures DayWindow(d).end <= MonthWindow(d.year, d.month).end
    ensures MonthWindow(d.year, d.month).end <= YearWindow(d.year).end
  {
    EpochDayBounds(d);
  }

  /** Every day window of a later date starts after this day's window ends. */
  lemma LaterDayWindowsStartLater(d: Date, e: Date)
    requires ValidDate(d) && ValidDate(e) && Before(d, e)
    ensures DayWindow(d).end < DayWindow(e).start
  {
    EpochDayStrictlyMonotone(d, e);
  }

  function YearSearchUp(n: int, y: int): (r: int)
    requires DaysBeforeYear(y) <= n
    ensures DaysBeforeYear(r) <= n < DaysBeforeYear(r + 1)
    decreases n - DaysBeforeYear(y)
  {
    DaysBeforeYearStep(y);
    if n < DaysBeforeYear(y + 1) then y else YearSearchUp(n, y + 1)
  }

  function YearSearchDown(n: int, y: int): (r: int)
    requires n < DaysBeforeYear(y + 1)
    ensures DaysBeforeYear(r) <= n < DaysBeforeYear(r + 1)
    decreases DaysBeforeYear(y + 1) - n
  {
    DaysBeforeYearStep(y);
    if DaysBeforeYear(y) <= n then y else YearSearchDown(n, y - 1)
  }

  function MonthSearch(y: int, k: int, m: int): (r: int)
    requires 1 <= m <= 12
    requires DaysBeforeMonth(y, m) <= k < DaysInYear(y)
    ensures 1 <= r <= 12
    ensures DaysBeforeMonth(y, r) <= k < DaysBeforeMonth(y, r + 1)
    decreases 12 - m
  {
    DaysBeforeMonthWholeYear(y);
    if k < DaysBeforeMonth(y, m + 1) then m else MonthSearch(y, k, m + 1)
  }

  /** The calendar date of day number `n`; inverse of `EpochDay`. */
  function CivilOfDay(n: int): (r: Date)
    ensures ValidDate(r)
    ensures EpochDay(r) == n
  {
    var y := if n >= 0 then YearSearchUp(n, 1970) else YearSearchDown(n, 1969);
    DaysBeforeYearStep(y);
    DaysBeforeMonthWholeYear(y);
    var m := MonthSearch(y, n - DaysBeforeYear(y), 1);
    DaysBeforeMonthStep(y, m);
    Date(y, m, n - DaysBeforeYear(y) - DaysBeforeMonth(y, m) + 1)
  }

  /** The UTC calendar date of an instant (`moment.utc(t)` read as a date). */
  function CivilOf(t: Instant): (r: Date)
    ensures ValidDate(r)
    ensures DayWindow(r).Contains(t)
  {
    CivilOfDay(t / MsPerDay)
  }

  /** Two valid dates with the same day number are the same date. */
  lemma EpochDayInjective(a: Date, b: Date)
    requires ValidDate(a) && ValidDate(b)
    requires EpochDay(a) == EpochDay(b)
    ensures a == b
  {
    if Before(a, b) {
      EpochDayStrictlyMonotone(a, b);
    } else if Before(b, a) {
      EpochDayStrictlyMonotone(b, a);
    }
  }

  /** Round trip: reading back the date of a valid date's day number gives the date. */
  lemma CivilOfEpochDay(d: Date)
    requires ValidDate(d)
    ensures CivilOfDay(EpochDay(d)) == d
    ensures CivilOf(DayWindow(d).start) == d
  {
    EpochDayInjective(CivilOfDay(EpochDay(d)), d);
    assert DayWindow(d).start / MsPerDay == EpochDay(d);
  }

  /**
    An instant lies in the month window of year `y`, month `m` exactly when
    its UTC calendar date is in that year and month.
   */
  lemma MonthWindowMembership(t: Instant, y: int, m: int)
    requires 1 <= m <= 12
    ensures MonthWindow(y, m).Contains(t) <==> CivilOf(t).year == y && CivilOf(t).month == m
  {
    var c := CivilOf(t);
    var first := Date(y, m, 1);
    var last := Date(y, m, DaysInMonth(y, m));
    EpochDayBounds(c);
    EpochDayBounds(first);
    EpochDayBounds(last);
    DaysBeforeMonthStep(y, m);
    if MonthWindow(y, m).Contains(t) {
      if Before(c, first) {
        EpochDayStrictlyMonotone(c, first);
      } else if Before(last, c) {
        EpochDayStrictlyMonotone(last, c);
      }
    }
  }
}

=== FILE: date_format.dfy ===
/**
  The `YYYY/MM` text key the billing code compares to decide whether a ledger
  line falls in the current month. `YYYY` and `MM` are the date library's
  zero-filled tokens: a leading `-` for a negative number, then the absolute
  value in decimal, left-padded with zeros to 4 (year) or 2 (month) digits.
 */
module DateFormat {
  import opened Calendar

  predicate IsDigit(c: char) {
    '0' <= c <= '9'
  }

  function DigitChar(d: int): (c: char)
    requires 0 <= d <= 9
    ensures IsDigit(c)
  {
    (('0' as int) + d) as char
  }

  function DigitValue(c: char): int {
    (c as int) - ('0' as int)
  }

  /** The decimal digits of `n`, most significant first, without leading zeros. */
  function Digits(n: nat): (s: string)
    ensures |s| >= 1
    ensures forall i :: 0 <= i < |s| ==> IsDigit(s[i])
  {
    if n < 10 then [DigitChar(n)] else Digits(n / 10) + [DigitChar(n % 10)]
  }

  function Zeros(k: nat): (s: string)
    ensures |s| == k
    ensures forall i :: 0 <= i < k ==> s[i] == '0'
  {
    if k == 0 then [] else Zeros(k - 1) + ['0']
  }

  function Abs(n: int): nat {
    if n < 0 then -n else n
  }

  /** The unsigned part of `zeroFill`: `|n|` left-padded with zeros to `width` digits. */
  function Magnitude(n: int, width: nat): string {
    var digits := Digits(Abs(n));
    Zeros(if width > |digits| then width - |digits| else 0) + digits
  }

  /** The library's `zeroFill(n, width)`. */
  function ZeroFill(n: int, width: nat): string {
    (if n < 0 then "-" else "") + Magnitude(n, width)
  }

  /** `format('YYYY/MM')` of a calendar date. */
  function MonthKey(d: Date): string {
    ZeroFill(d.year, 4) + "/" + ZeroFill(d.month, 2)
  }

  /** Reads a string of decimal digits back as a number. */
  function DecimalValue(s: string): int {
    if |s| == 0 then 0 else DecimalValue(s[..|s| - 1]) * 10 + DigitValue(s[|s| - 1])
  }

  lemma {:induction false} DecimalValueOfDigits(n: nat)
    ensures DecimalValue(Digits(n)) == n
  {
    if n >= 10 {
      var s := Digits(n);
      assert s[..|s| - 1] == Digits(n / 10);
      DecimalValueOfDigits(n / 10);
    }
  }

  lemma {:induction false} DecimalValueOfZeros(k: nat)
    ensures DecimalValue(Zeros(k)) == 0
  {
    if k > 0 {
      assert Zeros(k)[..k - 1] == Zeros(k - 1);
      DecimalValueOfZeros(k - 1);
    }
  }

  /** Leading zeros do not change a decimal value. */
  lemma {:induction false} DecimalValueIgnoresLeadingZeros(k: nat, s: string)
    ensures DecimalValue(Zeros(k) + s) == DecimalValue(s)
    decreases |s|
  {
    if |s| == 0 {
      assert Zeros(k) + s == Zeros(k);
      DecimalValueOfZeros(k);
    } else {
      var z := Zeros(k) + s;
      assert z[..|z| - 1] == Zeros(k) + s[..|s| - 1];
      assert z[|z| - 1] == s[|s| - 1];
      DecimalValueIgnoresLeadingZeros(k, s[..|s| - 1]);
    }
  }

  lemma MagnitudeValue(n: int, width: nat)
    ensures |Magnitude(n, width)| >= 1 && IsDigit(Magnitude(n, width)[0])
    ensures DecimalValue(Magnitude(n, width)) == Abs(n)
  {
    var digits := Digits(Abs(n));
    var k := if width > |digits| then width - |digits| else 0;
    assert Magnitude(n, width)[0] == if k > 0 then Zeros(k)[0] else digits[0];
    DecimalValueIgnoresLeadingZeros(k, digits);
    DecimalValueOfDigits(Abs(n));
  }

  /** Zero-filled numbers of the same width are equal only when the numbers are. */
  lemma ZeroFillInjective(a: int, b: int, width: nat)
    requires ZeroFill(a, width) == ZeroFill(b, width)
    ensures a == b
  {
    var s := ZeroFill(a, width);
    MagnitudeValue(a, width);
    MagnitudeValue(b, width);
    assert s[0] == '-' <==> a < 0;
    assert s[0] == '-' <==> b < 0;
    if a < 0 {
      assert s[1..] == Magnitude(a, width) == Magnitude(b, width);
    } else {
      assert "" + Magnitude(a, width) == Magnitude(a, width);
      assert "" + Magnitude(b, width) == Magnitude(b, width);
    }
  }

  lemma MonthFieldWidth(m: int)
    requires 1 <= m <= 12
    ensures |ZeroFill(m, 2)| == 2
  {
    if m >= 10 {
      assert Digits(m) == Digits(m / 10) + [DigitChar(m % 10)];
    }
  }

  /** Two month keys are equal exactly when the year and the month are. */
  lemma MonthKeyInjective(a: Date, b: Date)
    requires 1 <= a.month <= 12 && 1 <= b.month <= 12
    ensures MonthKey(a) == MonthKey(b) <==> a.year == b.year && a.month == b.month
  {
    if MonthKey(a) == MonthKey(b) {
      var ya, ma := ZeroFill(a.year, 4), ZeroFill(a.month, 2);
      var yb, mb := ZeroFill(b.year, 4), ZeroFill(b.month, 2);
      MonthFieldWidth(a.month);
      MonthFieldWidth(b.month);
      var k := MonthKey(a);
      assert |ya| == |yb|;
      assert ma == k[|k| - 2..] == mb;
      assert ya == k[..|ya|] == yb;
      ZeroFillInjective(a.year, b.year, 4);
      ZeroFillInjective(a.month, b.month, 2);
    }
  }
}

=== FILE: ids.dfy ===
/** Document identities. The store's object ids are opaque and only compared for equality. */
module Ids {
  type UserId = nat
  type ProjectId = nat
  type TaskId = nat
  type ObjectiveId = nat
  type WorkEntryId = nat
  type LineId = nat
}

=== FILE: invoice.dfy ===
/**
  The ledger line (invoice) record and the schema's constraints on it:
  `description`, `amount`, `invoicing_date` and `created_by` are required;
  `direction` is lower-cased and must then be `in` or `out`, but may be
  absent (its option is spelled `require`, which the schema ignores);
  `paid` defaults to false and `created_ts` to the creation instant.
 */
module Invoice {
  import opened Wrappers
  import opened Calendar
  import opened Ids

  datatype Direction = In | Out

  datatype InvoiceLine = InvoiceLine(
    id: LineId,
    project: Option<ProjectId>,
    receiver: Option<string>,
    description: string,
    amount: real,
    billedHours: Option<real>,
    invoicingDate: Instant,
    paid: bool,
    number: Option<real>,
    direction: Option<Direction>,
    attachment: Option<string>,
    createdBy: UserId,
    createdTs: Instant)

  /** A line as submitted: every field may be missing. */
  datatype LineDraft = LineDraft(
    id: LineId,
    project: Option<ProjectId>,
    receiver: Option<string>,
    description: Option<string>,
    amount: Option<real>,
    billedHours: Option<real>,
    invoicingDate: Option<Instant>,
    paid: Option<bool>,
    number: Option<real>,
    direction: Option<string>,
    attachment: Option<string>,
    createdBy: Option<UserId>,
    createdTs: Option<Instant>)

  /** The schema paths that can fail validation. */
  datatype Path = DescriptionPath | AmountPath | InvoicingDatePath | DirectionPath | CreatedByPath

  /** All failing paths are reported together. */
  datatype ValidationError = ValidationError(paths: set<Path>)

  function LowerChar(c: char): char {
    if 'A' <= c <= 'Z' then ((c as int) + 32) as char else c
  }

  /** Lower-casing of ASCII letters; other characters are kept. */
  function Lower(s: string): (r: string)
    ensures |r| == |s|
    ensures forall i :: 0 <= i < |s| ==> r[i] == LowerChar(s[i])
  {
    if |s| == 0 then [] else [LowerChar(s[0])] + Lower(s[1..])
  }

  /** The `direction` enum after the lower-case setter. */
  function ParseDirection(s: string): Option<Direction> {
    var l := Lower(s);
    if l == "in" then Some(In) else if l == "out" then Some(Out) else None
  }

  function DirectionText(d: Direction): string {
    match d
    case In => "in"
    case Out => "out"
  }

  /** A required string must be present and non-empty. */
  predicate HasText(s: Option<string>) {
    s.Some? && |s.value| > 0
  }

  function FailingPaths(d: LineDraft): set<Path> {
    (if HasText(d.description) then {} else {DescriptionPath})
    + (if d.amount.Some? then {} else {AmountPath})
    + (if d.invoicingDate.Some? then {} else {InvoicingDatePath})
    + (if d.createdBy.Some? then {} else {CreatedByPath})
    + (if d.direction.None? || ParseDirection(d.direction.value).Some? then {} else {DirectionPath})
  }

  /**
    Validates a draft against the schema and applies its defaults. It
    succeeds exactly when the four required fields are present (the
    description non-empty) and a present `direction` lower-cases to `in` or
    `out`; otherwise the error names exactly the failing paths.
   */
  function Validate(d: LineDraft, now: Instant): (r: Result<InvoiceLine, ValidationError>)
    ensures r.Success? <==>
      && HasText(d.description) && d.amount.Some? && d.invoicingDate.Some? && d.createdBy.Some?
      && (d.direction.Some? ==> Lower(d.direction.value) == "in" || Lower(d.direction.value) == "out")
    ensures r.Failure? ==>
      && (DescriptionPath in r.error.paths <==> !HasText(d.description))
      && (AmountPath in r.error.paths <==> d.amount.None?)
      && (InvoicingDatePath in r.error.paths <==> d.invoicingDate.None?)
      && (CreatedByPath in r.error.paths <==> d.createdBy.None?)
      && (DirectionPath in r.error.paths <==> d.direction.Some? && ParseDirection(d.direction.value).None?)
    ensures r.Success? ==>
      && r.value.id == d.id
      && r.value.description == d.description.value
      && r.value.amount == d.amount.value
      && r.value.invoicingDate == d.invoicingDate.value
      && r.value.createdBy == d.createdBy.value
      && r.value.paid == d.paid.GetOr(false)
      && r.value.createdTs == d.createdTs.GetOr(now)
      && (d.direction.None? ==> r.value.direction.None?)
      && (d.direction.Some? ==> r.value.direction.Some? && DirectionText(r.value.direction.value) == Lower(d.direction.value))
      && r.value.project == d.project && r.value.receiver == d.receiver
      && r.value.billedHours == d.billedHours && r.value.number == d.number
      && r.value.attachment == d.attachment
  {
    var failing := FailingPaths(d);
    if failing != {} then
      assert !HasText(d.description) ==> DescriptionPath in failing;
      assert d.amount.None? ==> AmountPath in failing;
      assert d.invoicingDate.None? ==> InvoicingDatePath in failing;
      assert d.createdBy.None? ==> CreatedByPath in failing;
      Failure(ValidationError(failing))
    else
      assert !(d.direction.Some? && ParseDirection(d.direction.value).None?) by {
        assert DirectionPath !in failing;
      }
      Success(InvoiceLine(
        d.id, d.project, d.receiver, d.description.value, d.amount.value, d.billedHours,
        d.invoicingDate.value, d.paid.GetOr(false), d.number,
        if d.direction.Some? then ParseDirection(d.direction.value) else None,
        d.attachment, d.createdBy.value, d.createdTs.GetOr(now)))
  }

  /** A stored line satisfies the schema's constraints. */
  predicate WellFormed(l: InvoiceLine) {
    |l.description| > 0
  }

  /** The draft that submits every field of a line, `direction` as its lower-case text. */
  function ToDraft(l: InvoiceLine): LineDraft {
    LineDraft(
      l.id, l.project, l.receiver, Some(l.description), Some(l.amount), l.billedHours,
      Some(l.invoicingDate), Some(l.paid), l.number,
      if l.direction.Some? then Some(DirectionText(l.direction.value)) else None,
      l.attachment, Some(l.createdBy), Some(l.createdTs))
  }

  lemma LowerOfDirectionText(d: Direction)
    ensures Lower(DirectionText(d)) == DirectionText(d)
    ensures ParseDirection(DirectionText(d)) == Some(d)
  {
  }

  /** Round trip: a well-formed line validates, from its full draft, to itself. */
  lemma ValidateToDraft(l: InvoiceLine, now: Instant)
    requires WellFormed(l)
    ensures Validate(ToDraft(l), now) == Success(l)
  {
    if l.direction.Some? {
      LowerOfDirectionText(l.direction.value);
    }
  }

  /**
    The other round trip: a draft that validates is well formed, and its
    line's full draft is the submitted one with the defaults filled in and
    `direction` lower-cased.
   */
  lemma DraftOfValidatedLine(d: LineDraft, now: Instant)
    requires Validate(d, now).Success?
    ensures WellFormed(Validate(d, now).value)
    ensures ToDraft(Validate(d, now).value) == d.(
      paid := Some(d.paid.GetOr(false)),
      createdTs := Some(d.createdTs.GetOr(now)),
      direction := if d.direction.Some? then Some(Lower(d.direction.value)) else None)
  {
  }

  /**
    `direction` is optional (the misspelled `require` option has no effect)
    and case-insensitive: with the required fields present, no direction and
    `"OUT"` both validate, the latter to `out`.
   */
  lemma DirectionOptionalAndLowerCased(d: LineDraft, now: Instant)
    requires HasText(d.description) && d.amount.Some? && d.invoicingDate.Some? && d.createdBy.Some?
    ensures Validate(d.(direction := None), now).Success?
    ensures Validate(d.(direction := Some("OUT")), now).Success?
    ensures Validate(d.(direction := Some("OUT")), now).value.direction == Some(Out)
    ensures Validate(d.(direction := Some("sideways")), now).Failure?
  {
    assert Lower("OUT") == "out";
    assert Lower("sideways") != "in" && Lower("sideways") != "out" by {
      assert |Lower("sideways")| == 8;
    }
  }
}

=== FILE: ledger.dfy ===
/**
  A project and its embedded ledger of invoice lines, with the three edits
  the handlers make to the ledger: append a line, replace the first line
  with a given id, and remove every line with a given id. Each edit changes
  the ledger only.
 */
module Ledger {
  import opened Wrappers
  import opened Seqs
  import opened Ids
  import opened Invoice

  datatype HoursSoldUnit = TotalHours | MonthlyHours

  datatype Project = Project(
    id: ProjectId,
    name: string,
    hoursSold: real,
    hoursSoldUnit: HoursSoldUnit,
    hourlyRate: real,
    active: bool,
    invoices: seq<InvoiceLine>)

  /** The position of the first line with id `id`, if any. */
  function IndexOf(lines: seq<InvoiceLine>, id: LineId): (r: Option<nat>)
    ensures r.None? ==> forall k :: 0 <= k < |lines| ==> lines[k].id != id
    ensures r.Some? ==> r.value < |lines| && lines[r.value].id == id
    ensures r.Some? ==> forall k :: 0 <= k < r.value ==> lines[k].id != id
  {
    if |lines| == 0 then None
    else if lines[0].id == id then Some(0)
    else match IndexOf(lines[1..], id)
      case None => None
      case Some(k) => Some(k + 1)
  }

  function ReplaceFirst(lines: seq<InvoiceLine>, id: LineId, line: InvoiceLine): (r: seq<InvoiceLine>)
    ensures IndexOf(lines, id).None? ==> r == lines
    ensures IndexOf(lines, id).Some? ==> r == lines[IndexOf(lines, id).value := line]
  {
    if |lines| == 0 then []
    else if lines[0].id == id then [line] + lines[1..]
    else [lines[0]] + ReplaceFirst(lines[1..], id, line)
  }

  function IdIsNot(id: LineId): InvoiceLine -> bool {
    (l: InvoiceLine) => l.id != id
  }

  /** `$push`: the line is appended at the end of the ledger. */
  function AddInvoice(p: Project, line: InvoiceLine): (r: Project)
    ensures r.(invoices := p.invoices) == p
    ensures |r.invoices| == |p.invoices| + 1
    ensures r.invoices[..|p.invoices|] == p.invoices && r.invoices[|p.invoices|] == line
  {
    p.(invoices := p.invoices + [line])
  }

  /**
    Positional `$set`: the first line with id `id` is replaced and every other
    line is kept; with no such line the project is unchanged.
   */
  function UpdateInvoice(p: Project, id: LineId, line: InvoiceLine): (r: Project)
    ensures r.(invoices := p.invoices) == p
    ensures |r.invoices| == |p.invoices|
    ensures (forall k :: 0 <= k < |p.invoices| ==> p.invoices[k].id != id) ==> r == p
    ensures forall k :: 0 <= k < |p.invoices| && p.invoices[k].id == id
                        && (forall j :: 0 <= j < k ==> p.invoices[j].id != id) ==>
              && r.invoices[k] == line
              && (forall j :: 0 <= j < |p.invoices| && j != k ==> r.invoices[j] == p.invoices[j])
  {
    p.(invoices := ReplaceFirst(p.invoices, id, line))
  }

  /** `$pull`: every line with id `id` is removed; the others keep their order. */
  function DeleteInvoice(p: Project, id: LineId): (r: Project)
    ensures r.(invoices := p.invoices) == p
    ensures forall k :: 0 <= k < |r.invoices| ==> r.invoices[k].id != id
    ensures forall k :: 0 <= k < |p.invoices| && p.invoices[k].id != id ==> p.invoices[k] in r.invoices
    ensures r.invoices == Filter(p.invoices, IdIsNot(id))
  {
    p.(invoices := Filter(p.invoices, IdIsNot(id)))
  }

  /** Deleting the id of a freshly appended line undoes the append. */
  lemma DeleteUndoesAdd(p: Project, line: InvoiceLine)
    requires forall k :: 0 <= k < |p.invoices| ==> p.invoices[k].id != line.id
    ensures DeleteInvoice(AddInvoice(p, line), line.id) == p
  {
    FilterAppend(p.invoices, [line], IdIsNot(line.id));
    FilterTrue(p.invoices, IdIsNot(line.id));
    assert Filter([line], IdIsNot(line.id)) == [];
    assert p.invoices + [] == p.invoices;
  }

  /** Deleting twice is deleting once. */
  lemma DeleteIdempotent(p: Project, id: LineId)
    ensures DeleteInvoice(DeleteInvoice(p, id), id) == DeleteInvoice(p, id)
  {
    FilterTrue(DeleteInvoice(p, id).invoices, IdIsNot(id));
  }

  /** Removing lines by id removes exactly the lines with that id. */
  lemma DeleteRemovesExactlyThatId(p: Project, id: LineId)
    ensures |DeleteInvoice(p, id).invoices| + |Filter(p.invoices, Not(IdIsNot(id)))| == |p.invoices|
    ensures forall l :: l in DeleteInvoice(p, id).invoices <==> l in p.invoices && l.id != id
  {
    FilterPartitionLength(p.invoices, IdIsNot(id));
    FilterMembership(p.invoices, IdIsNot(id));
  }
}

=== FILE: objectives.dfy ===
/**
  The objective rollup: which objectives are visible in a requested day,
  month or year window (carry-forward of unfinished work), how the result is
  grouped by level, and the completion summary computed from the day bucket.

  The store query becomes a filter over a given sequence of objectives, in
  store order; the current instant `now` is a parameter.
 */
module Objectives {
  import opened Wrappers
  import opened Seqs
  import opened Calendar
  import opened Ids

  datatype Level = Day | Month | Year

  datatype Objective = Objective(
    id: ObjectiveId,
    relatedTask: TaskId,
    owners: seq<UserId>,
    objectiveDate: Instant,
    level: Level,
    progress: real,
    completedTs: Option<Instant>,
    scratched: bool,
    scratchedTs: Option<Instant>,
    deleted: bool)

  // ---------------------------------------------------------------- anchor date

  /**
    The date the request denotes as the code composes it: the given year, and
    the given month and day or else today's UTC month and day. The result need
    not be a real date (see `Anchor`): for a request with in-range parts, it
    is one exactly when a day is given or today's day exists in the requested
    month.
   */
  function ComposeAnchor(year: int, month: Option<int>, day: Option<int>, now: Instant): (a: Date)
    ensures GivenPartsValid(year, month, day, now) ==>
              (ValidDate(a) <==> day.Some? || CivilOf(now).day <= DaysInMonth(year, month.GetOr(CivilOf(now).month)))
  {
    var today := CivilOf(now);
    Date(year, month.GetOr(today.month), day.GetOr(today.day))
  }

  /** The request's own parts are in range; the parts it leaves out are filled in from `now`. */
  predicate GivenPartsValid(year: int, month: Option<int>, day: Option<int>, now: Instant) {
    && (month.Some? ==> 1 <= month.value <= 12)
    && (day.Some? ==> 1 <= day.value <= DaysInMonth(year, month.GetOr(CivilOf(now).month)))
  }

  function Min(a: int, b: int): int {
    if a <= b then a else b
  }

  /**
    The anchor date of a request, with a defaulted day clamped to the length
    of the month so that the anchor is always a real date. Wherever the
    composed date is real, this is that date.
   */
  function Anchor(year: int, month: Option<int>, day: Option<int>, now: Instant): (a: Date)
    requires GivenPartsValid(year, month, day, now)
    ensures ValidDate(a)
    ensures a.year == year
    ensures a.month == month.GetOr(CivilOf(now).month)
    ensures day.Some? ==> a.day == day.value
    ensures day.None? ==> 1 <= a.day <= CivilOf(now).day
    ensures ValidDate(ComposeAnchor(year, month, day, now)) ==> a == ComposeAnchor(year, month, day, now)
  {
    var today := CivilOf(now);
    var m := month.GetOr(today.month);
    Date(year, m, day.GetOr(Min(today.day, DaysInMonth(year, m))))
  }

  // ---------------------------------------------------------------- windows and filters

  /** The window of a level around an anchor date: its day, its month or its year. */
  function PeriodWindow(level: Level, a: Date): Window
    requires ValidDate(a)
  {
    match level
    case Day => DayWindow(a)
    case Month => MonthWindow(a.year, a.month)
    case Year => YearWindow(a.year)
  }

  predicate ReachedSince(ts: Option<Instant>, start: Instant) {
    ts.Some? && ts.value >= start
  }

  /**
    The carry-forward rule for one window: the objective existed by the end of
    the window, it is unfinished or was finished inside or after the window's
    start, and it is not scratched or was scratched since the window's start.
   */
  predicate CarriedInto(o: Objective, w: Window) {
    && o.objectiveDate <= w.end
    && (o.progress != 1.0 || ReachedSince(o.completedTs, w.start))
    && (!o.scratched || ReachedSince(o.scratchedTs, w.start))
  }

  /** One per-level filter of the store query. */
  datatype LevelFilter = LevelFilter(level: Level, window: Window)

  /** The date part of the store query: one level filter, or the disjunction of all three. */
  datatype DateQuery = Single(filter: LevelFilter) | AnyOf(day: LevelFilter, month: LevelFilter, year: LevelFilter)

  predicate MatchesLevel(f: LevelFilter, o: Objective) {
    o.level == f.level && CarriedInto(o, f.window)
  }

  predicate Matches(q: DateQuery, o: Objective) {
    match q
    case Single(f) => MatchesLevel(f, o)
    case AnyOf(d, m, y) => MatchesLevel(d, o) || MatchesLevel(m, o) || MatchesLevel(y, o)
  }

  function LevelFilterAt(level: Level, a: Date): LevelFilter
    requires ValidDate(a)
  {
    LevelFilter(level, PeriodWindow(level, a))
  }

  /** The level a single-level request asks for, by specificity. */
  function SelectedLevel(month: Option<int>, day: Option<int>): Level {
    if month.Some? && day.Some? then Day
    else if month.Some? then Month
    else Year
  }

  /**
    The date filter of a request. In "all" mode an objective matches exactly
    when it is carried into the window of its own level; otherwise it must
    also be of the selected level. Every window is anchored to the same date.
   */
  function DateFilter(year: int, month: Option<int>, day: Option<int>, all: bool, now: Instant): (q: DateQuery)
    requires GivenPartsValid(year, month, day, now)
    ensures all <==> q.AnyOf?
    ensures forall o :: Matches(q, o) <==>
      && (all || o.level == SelectedLevel(month, day))
      && CarriedInto(o, PeriodWindow(o.level, Anchor(year, month, day, now)))
  {
    var a := Anchor(year, month, day, now);
    if all then AnyOf(LevelFilterAt(Day, a), LevelFilterAt(Month, a), LevelFilterAt(Year, a))
    else Single(LevelFilterAt(SelectedLevel(month, day), a))
  }

  /** The whole store query: the date filter, not deleted, and, when given, owned by `owner`. */
  function Selects(q: DateQuery, owner: Option<UserId>): Objective -> bool {
    (o: Objective) => Matches(q, o) && !o.deleted && (owner.Some? ==> owner.value in o.owners)
  }

  // ---------------------------------------------------------------- grouping

  /** The `{ day, month, year }` result: every key is always present. */
  datatype ByLevel = ByLevel(day: seq<Objective>, month: seq<Objective>, year: seq<Objective>) {
    function Bucket(level: Level): seq<Objective> {
      match level
      case Day => day
      case Month => month
      case Year => year
    }
  }

  function LevelIs(level: Level): Objective -> bool {
    (o: Objective) => o.level == level
  }

  /**
    Partitions objectives by level. Each bucket holds exactly the objectives
    of its level, in input order, so the bucket sizes add up to the input size.
   */
  function GroupByLevel(objectives: seq<Objective>): (r: ByLevel)
    ensures forall level :: r.Bucket(level) == Filter(objectives, LevelIs(level))
    ensures |r.day| + |r.month| + |r.year| == |objectives|
  {
    if |objectives| == 0 then ByLevel([], [], [])
    else
      var o := objectives[0];
      var rest := GroupByLevel(objectives[1..]);
      match o.level
      case Day => rest.(day := [o] + rest.day)
      case Month => rest.(month := [o] + rest.month)
      case Year => rest.(year := [o] + rest.year)
  }

  /** Every objective lands in the bucket of its own level, and only there. */
  lemma GroupByLevelPlacesByLevel(objectives: seq<Objective>)
    ensures forall level, o :: o in GroupByLevel(objectives).Bucket(level) <==> o in objectives && o.level == level
  {
    forall level: Level
      ensures forall o :: o in GroupByLevel(objectives).Bucket(level) <==> o in objectives && o.level == level
    {
      FilterMembership(objectives, LevelIs(level));
    }
  }

  /**
    `_getObjectives`: the store filtered by the query, grouped by level. Each
    stored objective is returned at most once, and outside "all" mode only the
    requested level's bucket can be non-empty.
   */
  function GetObjectives(store: seq<Objective>, year: int, month: Option<int>, day: Option<int>,
                         all: bool, owner: Option<UserId>, now: Instant): (r: ByLevel)
    requires GivenPartsValid(year, month, day, now)
    ensures |r.day| + |r.month| + |r.year| <= |store|
    ensures !all ==> forall level :: level != SelectedLevel(month, day) ==> r.Bucket(level) == []
  {
    var q := DateFilter(year, month, day, all, now);
    var selected := Filter(store, Selects(q, owner));
    assert !all ==> forall level :: level != SelectedLevel(month, day) ==>
                      Filter(selected, LevelIs(level)) == [] by {
      if !all {
        forall level | level != SelectedLevel(month, day)
          ensures Filter(selected, LevelIs(level)) == []
        {
          FilterMembership(store, Selects(q, owner));
          FilterNone(selected, LevelIs(level));
        }
      }
    }
    GroupByLevel(selected)
  }

  /**
    An objective is returned in bucket `level` exactly when it is in the store,
    has that level, is of the requested level (unless in "all" mode), is not
    deleted, belongs to the owner when one is given, and is carried into the
    window of that level.
   */
  lemma GetObjectivesSelects(store: seq<Objective>, year: int, month: Option<int>, day: Option<int>,
                             all: bool, owner: Option<UserId>, now: Instant)
    requires GivenPartsValid(year, month, day, now)
    ensures forall level, o :: o in GetObjectives(store, year, month, day, all, owner, now).Bucket(level) <==>
      && o in store
      && o.level == level
      && (all || level == SelectedLevel(month, day))
      && !o.deleted
      && (owner.Some? ==> owner.value in o.owners)
      && CarriedInto(o, PeriodWindow(level, Anchor(year, month, day, now)))
  {
    var q := DateFilter(year, month, day, all, now);
    var selected := Filter(store, Selects(q, owner));
    FilterMembership(store, Selects(q, owner));
    GroupByLevelPlacesByLevel(selected);
  }

  // ---------------------------------------------------------------- carry-forward laws

  /** A later anchor date never has an earlier window end, at any level. */
  lemma PeriodEndMonotone(level: Level, a: Date, b: Date)
    requires ValidDate(a) && ValidDate(b)
    requires a == b || Before(a, b)
    ensures PeriodWindow(level, a).end <= PeriodWindow(level, b).end
  {
    if a != b {
      match level
      case Day =>
        EpochDayStrictlyMonotone(a, b);
      case Month =>
        if a.year != b.year || a.month != b.month {
          PeriodStartsAfter(Month, a, b);
          WindowsNest(b);
        }
      case Year =>
        if a.year != b.year {
          PeriodStartsAfter(Year, a, b);
          WindowsNest(b);
        }
    }
  }

  /** `b` lies in a later period of `level` than `a`. */
  predicate LaterPeriod(level: Level, a: Date, b: Date) {
    match level
    case Day => Before(a, b)
    case Month => a.year < b.year || (a.year == b.year && a.month < b.month)
    case Year => a.year < b.year
  }

  /** Windows of later periods start after the earlier window ends. */
  lemma PeriodStartsAfter(level: Level, a: Date, b: Date)
    requires ValidDate(a) && ValidDate(b)
    requires LaterPeriod(level, a, b)
    ensures PeriodWindow(level, a).end < PeriodWindow(level, b).start
  {
    match level
    case Day =>
      LaterDayWindowsStartLater(a, b);
    case Month =>
      var last := Date(a.year, a.month, DaysInMonth(a.year, a.month));
      var first := Date(b.year, b.month, 1);
      DaysBeforeMonthStep(a.year, a.month);
      EpochDayStrictlyMonotone(last, first);
    case Year =>
      DaysBeforeYearMonotone(a.year, b.year);
  }

  /**
    Carry-forward: an unfinished, unscratched objective visible in one window
    stays visible in the window of every later anchor date, however many
    periods have passed.
   */
  lemma CarryForward(o: Objective, a: Date, b: Date)
    requires ValidDate(a) && ValidDate(b)
    requires a == b || Before(a, b)
    requires o.progress != 1.0 && !o.scratched
    requires CarriedInto(o, PeriodWindow(o.level, a))
    ensures CarriedInto(o, PeriodWindow(o.level, b))
  {
    PeriodEndMonotone(o.level, a, b);
  }

  /**
    Completion cut-off: an objective finished at an instant inside the window
    of its level at `a` is visible at `a`, and is excluded from the window of
    every later period.
   */
  lemma CompletionCutOff(o: Objective, a: Date, b: Date)
    requires ValidDate(a) && ValidDate(b)
    requires o.progress == 1.0 && !o.scratched
    requires o.completedTs.Some? && PeriodWindow(o.level, a).Contains(o.completedTs.value)
    requires o.objectiveDate <= PeriodWindow(o.level, a).end
    requires LaterPeriod(o.level, a, b)
    ensures CarriedInto(o, PeriodWindow(o.level, a))
    ensures !CarriedInto(o, PeriodWindow(o.level, b))
  {
    PeriodStartsAfter(o.level, a, b);
  }

  /** The day-level case: an objective completed on day `d` is shown on `d` but not on the next day. */
  lemma CompletedDayObjectiveLeavesNextDay(o: Objective, d: Date)
    requires ValidDate(d)
    requires o.level == Day && o.progress == 1.0 && !o.scratched
    requires o.completedTs.Some? && DayWindow(d).Contains(o.completedTs.value)
    requires o.objectiveDate <= DayWindow(d).end
    ensures MatchesLevel(LevelFilterAt(Day, d), o)
    ensures !MatchesLevel(LevelFilterAt(Day, NextDay(d)), o)
  {
    CompletionCutOff(o, d, NextDay(d));
  }

  // ---------------------------------------------------------------- the dates a request denotes

  /**
    A month-only request made on the 31st of a month composes a date that does
    not exist when the requested month is shorter, here 2024-02-31.
   */
  lemma MonthOnlyRequestOnThe31st()
    ensures GivenPartsValid(2024, Some(2), None, DayWindow(Date(2024, 3, 31)).start)
    ensures !ValidDate(ComposeAnchor(2024, Some(2), None, DayWindow(Date(2024, 3, 31)).start))
  {
    CivilOfEpochDay(Date(2024, 3, 31));
  }

  /**
    A year-only request made on a 29th of February composes a date that does
    not exist when the requested year is not a leap year, here 2023-02-29.
   */
  lemma YearOnlyRequestOnLeapDay()
    ensures GivenPartsValid(2023, None, None, DayWindow(Date(2024, 2, 29)).start)
    ensures !ValidDate(ComposeAnchor(2023, None, None, DayWindow(Date(2024, 2, 29)).start))
  {
    CivilOfEpochDay(Date(2024, 2, 29));
  }

  /**
    With the clamped anchor the selected window of a month-only or a year-only
    request is fixed by the parts the request gives, whatever the current date.
   */
  lemma SelectedWindowIgnoresDefaults(year: int, month: Option<int>, now: Instant)
    requires month.Some? ==> 1 <= month.value <= 12
    ensures month.Some? ==> PeriodWindow(SelectedLevel(month, None), Anchor(year, month, None, now))
                             == MonthWindow(year, month.value)
    ensures month.None? ==> PeriodWindow(SelectedLevel(month, None), Anchor(year, month, None, now))
                             == YearWindow(year)
  {
  }

  // ---------------------------------------------------------------- summary

  datatype Tally = Tally(completed: int, count: nat)

  datatype Summary = Summary(user: Tally, everyone: Tally)

  /**
    The sum of `floor(progress)` over the objectives; with progress in 0..1 it
    lies between 0 and the number of objectives.
   */
  function CompletedCount(objectives: seq<Objective>): (r: int)
    ensures ProgressInUnitRange(objectives) ==> 0 <= r <= |objectives|
  {
    if |objectives| == 0 then 0
    else
      assert ProgressInUnitRange(objectives) ==> ProgressInUnitRange(objectives[1..]) by {
        assert forall i :: 0 <= i < |objectives| - 1 ==> objectives[1..][i] == objectives[i + 1];
      }
      objectives[0].progress.Floor + CompletedCount(objectives[1..])
  }

  /** Appending one objective adds its `floor(progress)`. */
  lemma {:induction false} CompletedCountAppend(objectives: seq<Objective>, o: Objective)
    ensures CompletedCount(objectives + [o]) == CompletedCount(objectives) + o.progress.Floor
  {
    if |objectives| > 0 {
      assert (objectives + [o])[1..] == objectives[1..] + [o];
      CompletedCountAppend(objectives[1..], o);
    }
  }

  predicate IsUnscratched(o: Objective) {
    !o.scratched
  }

  predicate IsFinished(o: Objective) {
    o.progress == 1.0
  }

  function OwnedBy(owner: UserId): Objective -> bool {
    (o: Objective) => owner in o.owners
  }

  /** Progress within the domain convention 0..1. */
  predicate ProgressInUnitRange(objectives: seq<Objective>) {
    forall i :: 0 <= i < |objectives| ==> 0.0 <= objectives[i].progress <= 1.0
  }

  /** With progress in 0..1, summing `floor(progress)` counts exactly the finished objectives. */
  lemma {:induction false} CompletedCountCountsFinished(objectives: seq<Objective>)
    requires ProgressInUnitRange(objectives)
    ensures CompletedCount(objectives) == |Filter(objectives, IsFinished)|
    ensures CompletedCount(objectives) <= |objectives|
  {
    if |objectives| > 0 {
      assert ProgressInUnitRange(objectives[1..]) by {
        forall i | 0 <= i < |objectives| - 1
          ensures 0.0 <= objectives[1..][i].progress <= 1.0
        {
          assert objectives[1..][i] == objectives[i + 1];
        }
      }
      CompletedCountCountsFinished(objectives[1..]);
    }
  }

  /** With non-negative progress, a filtered part completes no more than the whole. */
  lemma {:induction false} CompletedCountOfFilterAtMost(objectives: seq<Objective>, p: Objective -> bool)
    ensures (forall i :: 0 <= i < |objectives| ==> 0.0 <= objectives[i].progress) ==>
              CompletedCount(Filter(objectives, p)) <= CompletedCount(objectives)
  {
    if |objectives| > 0 && forall i :: 0 <= i < |objectives| ==> 0.0 <= objectives[i].progress {
      var rest := objectives[1..];
      assert forall i :: 0 <= i < |rest| ==> rest[i] == objectives[i + 1];
      CompletedCountOfFilterAtMost(rest, p);
      if p(objectives[0]) {
        var r := [objectives[0]] + Filter(rest, p);
        assert r[1..] == Filter(rest, p);
      }
    }
  }

  /**
    `getSummary`: scratched objectives are dropped; the user's figures cover
    the remaining objectives the owner belongs to, the everyone figures cover
    all remaining objectives; `completed` sums `floor(progress)`.
   */
  function GetSummary(all: seq<Objective>, owner: UserId): (r: Summary)
    ensures r.user.count <= r.everyone.count <= |all|
    ensures (forall i :: 0 <= i < |all| ==> 0.0 <= all[i].progress) ==> r.user.completed <= r.everyone.completed
  {
    var objectives := Filter(all, IsUnscratched);
    var mine := Filter(objectives, OwnedBy(owner));
    FilterMembership(all, IsUnscratched);
    assert forall i :: 0 <= i < |objectives| ==> objectives[i] in all;
    CompletedCountOfFilterAtMost(objectives, OwnedBy(owner));
    Summary(Tally(CompletedCount(mine), |mine|), Tally(CompletedCount(objectives), |objectives|))
  }

  /** The summary's figures are those of the unscratched objectives and of the owner's share of them. */
  lemma SummaryFigures(all: seq<Objective>, owner: UserId)
    ensures var objectives := Filter(all, IsUnscratched);
            var mine := Filter(objectives, OwnedBy(owner));
            GetSummary(all, owner) == Summary(Tally(CompletedCount(mine), |mine|),
                                              Tally(CompletedCount(objectives), |objectives|))
  {
  }

  /**
    With progress in 0..1, `completed` counts exactly the unscratched finished
    objectives (owned by the user, for the user figures), never more than `count`.
   */
  lemma SummaryCountsFinished(all: seq<Objective>, owner: UserId)
    requires ProgressInUnitRange(all)
    ensures GetSummary(all, owner).everyone.completed == |Filter(all, And(IsUnscratched, IsFinished))|
    ensures GetSummary(all, owner).user.completed
            == |Filter(Filter(all, IsUnscratched), And(OwnedBy(owner), IsFinished))|
    ensures GetSummary(all, owner).user.completed <= GetSummary(all, owner).user.count
    ensures GetSummary(all, owner).everyone.completed <= GetSummary(all, owner).everyone.count
  {
    var objectives := Filter(all, IsUnscratched);
    var mine := Filter(objectives, OwnedBy(owner));
    FilterMembership(all, IsUnscratched);
    FilterMembership(objectives, OwnedBy(owner));
    assert ProgressInUnitRange(objectives) by {
      forall i | 0 <= i < |objectives| ensures 0.0 <= objectives[i].progress <= 1.0 {
        assert objectives[i] in all;
      }
    }
    assert ProgressInUnitRange(mine) by {
      forall i | 0 <= i < |mine| ensures 0.0 <= mine[i].progress <= 1.0 {
        assert mine[i] in objectives;
      }
    }
    CompletedCountCountsFinished(objectives);
    CompletedCountCountsFinished(mine);
    FilterFilter(all, IsUnscratched, IsFinished);
    FilterFilter(objectives, OwnedBy(owner), IsFinished);
  }

  /**
    An unscratched objective counts once for everyone and once for the user
    exactly when the user owns it, adding its `floor(progress)` to the
    completed figures it counts in.
   */
  lemma UnscratchedObjectiveCounted(all: seq<Objective>, o: Objective, owner: UserId)
    requires !o.scratched
    ensures GetSummary(all + [o], owner).everyone ==
      Tally(GetSummary(all, owner).everyone.completed + o.progress.Floor, GetSummary(all, owner).everyone.count + 1)
    ensures GetSummary(all + [o], owner).user ==
      if owner in o.owners
      then Tally(GetSummary(all, owner).user.completed + o.progress.Floor, GetSummary(all, owner).user.count + 1)
      else GetSummary(all, owner).user
  {
    AppendUnscratched(all, o, owner);
    SummaryFigures(all, owner);
    SummaryFigures(all + [o], owner);
  }

  /** Appending an unscratched objective adds one to the figures it counts in and leaves the others unchanged. */
  lemma AppendUnscratched(all: seq<Objective>, o: Objective, owner: UserId)
    requires !o.scratched
    ensures var objectives, objectives' := Filter(all, IsUnscratched), Filter(all + [o], IsUnscratched);
      && CompletedCount(objectives') == CompletedCount(objectives) + o.progress.Floor
      && |objectives'| == |objectives| + 1
      && var mine, mine' := Filter(objectives, OwnedBy(owner)), Filter(objectives', OwnedBy(owner));
         if owner in o.owners
         then CompletedCount(mine') == CompletedCount(mine) + o.progress.Floor && |mine'| == |mine| + 1
         else mine' == mine
  {
    var objectives := Filter(all, IsUnscratched);
    FilterAppend(all, [o], IsUnscratched);
    FilterOne(o, IsUnscratched);
    CompletedCountAppend(objectives, o);
    var mine := Filter(objectives, OwnedBy(owner));
    FilterAppend(objectives, [o], OwnedBy(owner));
    FilterOne(o, OwnedBy(owner));
    if owner in o.owners {
      CompletedCountAppend(mine, o);
    } else {
      assert mine + [] == mine;
    }
  }

  /** A scratched objective changes neither the user's nor everyone's figures. */
  lemma ScratchedObjectiveNotCounted(all: seq<Objective>, o: Objective, owner: UserId)
    requires o.scratched
    ensures GetSummary(all + [o], owner) == GetSummary(all, owner)
  {
    FilterAppend(all, [o], IsUnscratched);
    assert Filter([o], IsUnscratched) == [];
    assert Filter(all, IsUnscratched) + [] == Filter(all, IsUnscratched);
  }

  /** The summary route: the day bucket of an unscoped, single-level query, reduced for `owner`. */
  function ObjectivesSummary(store: seq<Objective>, year: int, month: Option<int>, day: Option<int>,
                             owner: UserId, now: Instant): (r: Summary)
    requires GivenPartsValid(year, month, day, now)
    ensures r.user.count <= r.everyone.count <= |store|
    ensures SelectedLevel(month, day) != Day ==> r == Summary(Tally(0, 0), Tally(0, 0))
  {
    var grouped := GetObjectives(store, year, month, day, false, None, now);
    assert SelectedLevel(month, day) != Day ==> GetSummary(grouped.day, owner) == Summary(Tally(0, 0), Tally(0, 0)) by {
      assert grouped.day == grouped.Bucket(Day);
      assert GetSummary([], owner) == Summary(Tally(0, 0), Tally(0, 0));
    }
    GetSummary(grouped.day, owner)
  }

  /**
    The query behind the summary applies no owner filter: the everyone figures
    are the same whoever asks, and the user's figures never exceed them.
   */
  lemma SummaryEveryoneIndependentOfOwner(store: seq<Objective>, year: int, month: Option<int>, day: Option<int>,
                                          u: UserId, v: UserId, now: Instant)
    requires GivenPartsValid(year, month, day, now)
    ensures ObjectivesSummary(store, year, month, day, u, now).everyone
            == ObjectivesSummary(store, year, month, day, v, now).everyone
    ensures ObjectivesSummary(store, year, month, day, u, now).user.count
            <= ObjectivesSummary(store, year, month, day, u, now).everyone.count
  {
  }

  lemma OwnedByScenario(done: Objective, open: Objective)
    requires done.owners == [1] && open.owners == [2]
    ensures Filter([done, done, done, open], OwnedBy(1)) == [done, done, done]
  {
    assert [done, done, done, open][1..] == [done, done, open];
    assert [done, done, open][1..] == [done, open];
    assert [done, open][1..] == [open];
    assert Filter([open], OwnedBy(1)) == [] by {
      assert !OwnedBy(1)(open);
    }
    assert OwnedBy(1)(done);
    assert Filter([done, open], OwnedBy(1)) == [done];
    assert Filter([done, done, open], OwnedBy(1)) == [done, done];
  }

  lemma CompletedScenario(done: Objective, open: Objective)
    requires done.progress == 1.0 && 0.0 <= open.progress < 1.0
    ensures CompletedCount([done, done, done, open]) == 3
    ensures CompletedCount([done, done, done]) == 3
  {
    assert open.progress.Floor == 0;
    assert [done, done, done, open][1..] == [done, done, open];
    assert [done, done, open][1..] == [done, open];
    assert [done, open][1..] == [open];
    assert [done, done, done][1..] == [done, done];
    assert [done, done][1..] == [done];
    assert CompletedCount([open]) == 0;
    assert CompletedCount([done, open]) == 1;
    assert CompletedCount([done, done, open]) == 2;
    assert CompletedCount([done]) == 1;
    assert CompletedCount([done, done]) == 2;
  }

  /** Three finished objectives of user 1 and one unfinished objective of user 2. */
  lemma SummaryScenario(p: real)
    requires 0.0 <= p < 1.0
    ensures var done := Objective(0, 0, [1], 0, Day, 1.0, Some(0), false, None, false);
            var open := Objective(1, 0, [2], 0, Day, p, None, false, None, false);
            GetSummary([done, done, done, open], 1) == Summary(Tally(3, 3), Tally(3, 4))
  {
    var done := Objective(0, 0, [1], 0, Day, 1.0, Some(0), false, None, false);
    var open := Objective(1, 0, [2], 0, Day, p, None, false, None, false);
    var all := [done, done, done, open];
    FilterTrue(all, IsUnscratched);
    OwnedByScenario(done, open);
    CompletedScenario(done, open);
  }
}

=== FILE: seqs.dfy ===
/**
  Order-preserving filter, map and exact sum over sequences: the in-memory
  counterparts of the `filter`, `map` and `reduce` calls the handlers make,
  and of the store queries once they are read as filters over a collection.
 */
module Seqs {

  /** Keeps the elements satisfying `p`, in their original order. */
  function Filter<T>(xs: seq<T>, p: T -> bool): (r: seq<T>)
    ensures |r| <= |xs|
    ensures forall i :: 0 <= i < |r| ==> r[i] in xs && p(r[i])
    ensures forall i :: 0 <= i < |xs| && p(xs[i]) ==> xs[i] in r
  {
    if |xs| == 0 then []
    else if p(xs[0]) then [xs[0]] + Filter(xs[1..], p)
    else Filter(xs[1..], p)
  }

  lemma FilterMembership<T>(xs: seq<T>, p: T -> bool)
    ensures forall x :: x in Filter(xs, p) <==> x in xs && p(x)
  {
    var r := Filter(xs, p);
    forall x | x in xs && p(x)
      ensures x in r
    {
      var i :| 0 <= i < |xs| && xs[i] == x;
    }
  }

  function Not<T>(p: T -> bool): T -> bool {
    x => !p(x)
  }

  function And<T>(p: T -> bool, q: T -> bool): T -> bool {
    x => p(x) && q(x)
  }

  function Map<T, U>(xs: seq<T>, f: T -> U): (r: seq<U>)
    ensures |r| == |xs|
    ensures forall i :: 0 <= i < |xs| ==> r[i] == f(xs[i])
  {
    if |xs| == 0 then [] else [f(xs[0])] + Map(xs[1..], f)
  }

  /** The exact sum of a sequence of numbers; 0 for the empty sequence. */
  function Sum(xs: seq<real>): (r: real)
    ensures (forall i :: 0 <= i < |xs| ==> xs[i] >= 0.0) ==> r >= 0.0
  {
    if |xs| == 0 then 0.0 else xs[0] + Sum(xs[1..])
  }

  lemma {:induction false} FilterAppend<T>(a: seq<T>, b: seq<T>, p: T -> bool)
    ensures Filter(a + b, p) == Filter(a, p) + Filter(b, p)
  {
    if |a| == 0 {
      assert a + b == b;
    } else {
      assert (a + b)[0] == a[0];
      assert (a + b)[1..] == a[1..] + b;
      FilterAppend(a[1..], b, p);
    }
  }

  lemma {:induction false} MapAppend<T, U>(a: seq<T>, b: seq<T>, f: T -> U)
    ensures Map(a + b, f) == Map(a, f) + Map(b, f)
  {
    if |a| == 0 {
      assert a + b == b;
    } else {
      assert (a + b)[1..] == a[1..] + b;
      MapAppend(a[1..], b, f);
    }
  }

  lemma {:induction false} SumAppend(a: seq<real>, b: seq<real>)
    ensures Sum(a + b) == Sum(a) + Sum(b)
  {
    if |a| == 0 {
      assert a + b == b;
    } else {
      assert (a + b)[1..] == a[1..] + b;
      SumAppend(a[1..], b);
    }
  }

  /** Splitting a sum by a predicate: the part that satisfies it plus the part that does not. */
  lemma {:induction false} SumSplit<T>(xs: seq<T>, p: T -> bool, f: T -> real)
    ensures Sum(Map(xs, f)) == Sum(Map(Filter(xs, p), f)) + Sum(Map(Filter(xs, Not(p)), f))
  {
    if |xs| > 0 {
      SumSplit(xs[1..], p, f);
      var rest := xs[1..];
      if p(xs[0]) {
        assert !Not(p)(xs[0]);
        MapAppend([xs[0]], Filter(rest, p), f);
        SumAppend(Map([xs[0]], f), Map(Filter(rest, p), f));
      } else {
        assert Not(p)(xs[0]);
        MapAppend([xs[0]], Filter(rest, Not(p)), f);
        SumAppend(Map([xs[0]], f), Map(Filter(rest, Not(p)), f));
      }
    }
  }

  /** Non-negative terms have a non-negative sum. */
  lemma SumNonNegative<T>(xs: seq<T>, f: T -> real)
    ensures (forall x :: x in xs ==> f(x) >= 0.0) ==> Sum(Map(xs, f)) >= 0.0
  {
    var ys := Map(xs, f);
    if forall x :: x in xs ==> f(x) >= 0.0 {
      assert forall i :: 0 <= i < |ys| ==> ys[i] >= 0.0 by {
        forall i | 0 <= i < |ys| ensures ys[i] >= 0.0 {
          assert xs[i] in xs;
        }
      }
    }
  }

  /** With non-negative terms, summing over a filtered part never exceeds the whole. */
  lemma FilteredSumAtMost<T>(xs: seq<T>, p: T -> bool, f: T -> real)
    requires forall x :: x in xs ==> f(x) >= 0.0
    ensures Sum(Map(Filter(xs, p), f)) <= Sum(Map(xs, f))
  {
    SumSplit(xs, p, f);
    SumNonNegative(Filter(xs, Not(p)), f);
  }

  lemma {:induction false} FilterTrue<T>(xs: seq<T>, p: T -> bool)
    requires forall x :: x in xs ==> p(x)
    ensures Filter(xs, p) == xs
  {
    if |xs| > 0 {
      assert xs[0] in xs;
      FilterTrue(xs[1..], p);
      assert [xs[0]] + xs[1..] == xs;
    }
  }

  /** Filtering by a predicate no element satisfies leaves nothing. */
  lemma FilterNone<T>(xs: seq<T>, p: T -> bool)
    requires forall x :: x in xs ==> !p(x)
    ensures Filter(xs, p) == []
  {
    FilterTrue(xs, Not(p));
    FilterPartitionLength(xs, p);
  }

  /** A one-element sequence keeps its element exactly when it passes. */
  lemma FilterOne<T>(x: T, p: T -> bool)
    ensures Filter([x], p) == if p(x) then [x] else []
  {
    assert [x][1..] == [];
  }

  /** A pair whose first element passes and second fails filters to the first. */
  lemma FilterPair<T>(a: T, b: T, p: T -> bool)
    requires p(a) && !p(b)
    ensures Filter([a, b], p) == [a]
  {
    assert [a, b][1..] == [b];
    assert [b][1..] == [];
  }

  /** The sum over one mapped element is that element's image. */
  lemma SumMapOne<T>(x: T, f: T -> real)
    ensures Sum(Map([x], f)) == f(x)
  {
    assert [x][1..] == [];
  }

  /** Filtering twice is filtering once by the conjunction. */
  lemma {:induction false} FilterFilter<T>(xs: seq<T>, p: T -> bool, q: T -> bool)
    ensures Filter(Filter(xs, p), q) == Filter(xs, And(p, q))
  {
    if |xs| > 0 {
      FilterFilter(xs[1..], p, q);
      if p(xs[0]) {
        var r := [xs[0]] + Filter(xs[1..], p);
        assert r[0] == xs[0] && r[1..] == Filter(xs[1..], p);
      }
    }
  }

  /** The two halves of a filter account for every element. */
  lemma {:induction false} FilterPartitionLength<T>(xs: seq<T>, p: T -> bool)
    ensures |Filter(xs, p)| + |Filter(xs, Not(p))| == |xs|
  {
    if |xs| > 0 {
      FilterPartitionLength(xs[1..], p);
      assert p(xs[0]) <==> !Not(p)(xs[0]);
    }
  }

  lemma MapMembership<T, U>(xs: seq<T>, f: T -> U)
    ensures forall y :: y in xs ==> f(y) in Map(xs, f)
    ensures forall x :: x in Map(xs, f) ==> exists y :: y in xs && f(y) == x
  {
    var r := Map(xs, f);
    forall y | y in xs
      ensures f(y) in r
    {
      var i :| 0 <= i < |xs| && xs[i] == y;
      assert r[i] == f(y);
    }
    forall x | x in r
      ensures exists y :: y in xs && f(y) == x
    {
      var i :| 0 <= i < |r| && r[i] == x;
      assert xs[i] in xs;
    }
  }

  /** Filtering by two predicates that agree on every element gives the same result. */
  lemma {:induction false} FilterCongruence<T>(xs: seq<T>, p: T -> bool, q: T -> bool)
    requires forall i :: 0 <= i < |xs| ==> p(xs[i]) == q(xs[i])
    ensures Filter(xs, p) == Filter(xs, q)
  {
    if |xs| > 0 {
      FilterCongruence(xs[1..], p, q);
    }
  }

  /** Every earlier element is related to every later one. */
  ghost predicate SortedBy<T>(xs: seq<T>, le: (T, T) -> bool) {
    forall i, j :: 0 <= i < j < |xs| ==> le(xs[i], xs[j])
  }

  /** A filtered sequence keeps the order of the original. */
  lemma {:induction false} FilterPreservesSorted<T>(xs: seq<T>, p: T -> bool, le: (T, T) -> bool)
    requires SortedBy(xs, le)
    ensures SortedBy(Filter(xs, p), le)
  {
    if |xs| > 0 {
      var rest := xs[1..];
      assert SortedBy(rest, le) by {
        forall i, j | 0 <= i < j < |rest| ensures le(rest[i], rest[j]) {
          assert rest[i] == xs[i + 1] && rest[j] == xs[j + 1];
        }
      }
      FilterPreservesSorted(rest, p, le);
      if p(xs[0]) {
        var r := [xs[0]] + Filter(rest, p);
        forall i, j | 0 <= i < j < |r| ensures le(r[i], r[j]) {
          if i == 0 {
            assert r[j] in rest;
            var k :| 0 <= k < |rest| && rest[k] == r[j];
            assert xs[k + 1] == r[j];
          } else {
            assert r[i] == Filter(rest, p)[i - 1] && r[j] == Filter(rest, p)[j - 1];
          }
        }
      }
    }
  }

  /**
    The `reduce((total, n) => n + total, 0)` left fold used by the handlers;
    it computes the same value as `Sum`.
   */
  method SumLeftFold(numbers: seq<real>) returns (total: real)
    ensures total == Sum(numbers)
  {
    total := 0.0;
    var i := 0;
    while i < |numbers|
      invariant 0 <= i <= |numbers|
      invariant total == Sum(numbers[..i])
    {
      SumAppend(numbers[..i], [numbers[i]]);
      assert numbers[..i + 1] == numbers[..i] + [numbers[i]];
      total := numbers[i] + total;
      i := i + 1;
    }
    assert numbers[..i] == numbers;
  }
}

=== FILE: wrappers.dfy ===
/** Failure-compatible Option and Result types used across the model. */
module Wrappers {

  datatype Option<+T> = None | Some(value: T) {

    /** Returns the value in Some, or the given default (JavaScript's `x || d`). */
    function GetOr(default: T): T {
      match this
      case Some(v) => v
      case None => default
    }
  }

  /** Either a value or an error; usable with `:-`. */
  datatype Result<+R, +E> = Success(value: R) | Failure(error: E) {

    predicate IsFailure() {
      Failure?
    }

    function PropagateFailure<U>(): Result<U, E>
      requires Failure?
    {
      Failure(error)
    }

    function Extract(): R
      requires Success?
    {
      value
    }
  }
}
